=== FILE: README.md ===
# Student dataset dashboard — a Dafny model of its data core

The dashboard loads a CSV of foreign students. Each record maps header names to
cell text. The dashboard then draws three charts: counts by nationality, counts
by gender, and visa status stacked over the top nationalities. It also shows a
paged table and offers three filters: a gender drop-down, a visa drop-down and
a school search box. This project models the pure data logic behind all of
that, in `app.js`:

- `normalizeValue`: trimming, and the `-` / `null` / any-case `na` sentinels.
- `detectColumns`: each role keeps its configured header when the header row
  has it. Otherwise it takes the first header that matches one of the role's
  anchored, case-insensitive synonyms.
- `groupCount`: counting into an insertion-ordered map under the placeholder
  label `(không rõ)`, then a stable sort by descending count.
- `makePalette`: twenty colours reused cyclically.
- The chart data built in `renderCharts`:
  - the nationality top-N cut, with `Array.prototype.slice` semantics;
  - the nationality whitelist of the stacked chart;
  - the whitelisted rows;
  - the distinct visa values in first-occurrence order;
  - one dataset per visa, counting rows per whitelisted nationality.
- `applyFilters`: the per-row predicate, and the reset of the table page to 1.
- `populateFilterOptions`: the distinct non-empty values of a column, sorted.
- `renderTable`: the page slice and the four normalised cells shown per row.
- The configuration as query parameters override it (`param || default` and
  `Number(param) || default`), and the session state that `init` and
  `applyFilters` set.

The model is organised by module:

| module | file | contents |
|---|---|---|
| `Wrappers` | wrappers.dfy | `Option` |
| `Seqs` | seqs.dfy | duplicates, first occurrences, de-duplication in first-occurrence order, `filter`, subsequences |
| `Text` | text.dfy | ECMAScript `trim` with its exact whitespace set, ASCII lower-casing, `includes`, lexicographic order |
| `Normalizer` | normalizer.dfy | `normalizeValue` and cell access; a header the record does not have reads as `undefined` |
| `ColumnResolver` | column_resolver.dfy | `detectColumns` |
| `FrequencyTable` | frequency_table.dfy | the counting loop and the stable sort of `groupCount` |
| `FrequencySpec` | frequency_spec.dfy | an order-based description of `groupCount`'s result, and the proof that it has exactly one solution |
| `Aggregator` | aggregator.dfy | `groupCount` over rows, the placeholder label, top-N |
| `Colors` | colors.dfy | `makePalette` |
| `CrossTab` | cross_tab.dfy | the stacked visa-by-nationality chart |
| `FilterEngine` | filter_engine.dfy | `applyFilters` |
| `FilterOptions` | filter_options.dfy | `populateFilterOptions` |
| `Table` | table.dfy | `renderTable` |
| `Dashboard` | dashboard.dfy | configuration, session state, and what is drawn from it |
| `Scenarios` | scenarios.dfy | a three-row dataset worked through the counting and filtering |

The frequency table is specified twice, and the two are proved equal:

- **Operationally.** `FrequencyTable.GroupKeys` is a fold that mirrors `Map.set`
  followed by a stable insertion sort.
- **Declaratively.** `FrequencySpec.IsFrequencyTable` says the table lists every
  distinct key once, with its number of occurrences, by descending count, and
  breaks ties by first occurrence.

`FrequencySpec.FrequencyTableUnique` proves that only one sequence meets the
declarative description. Any stable sort therefore gives the same table.

Some behaviours of the code are easy to misread:

- `Number(param) || default` falls back only on `0` and `NaN`. A negative `topN`
  is kept, and `slice(0, -3)` then drops the last three entries.
- Entries with equal counts keep the order in which their keys first occur,
  because `Array.prototype.sort` is stable.
- A row with an empty nationality is counted under `(không rõ)`, so that label
  can enter the stacked chart's whitelist. However, `rowsTop` compares each
  row's normalised nationality, which is `""`, against the whitelist. The
  placeholder's stacked column therefore stays empty unless some cell literally
  reads `(không rõ)`. `CrossTab.UnknownNationalityStackIsEmpty` states this
  behaviour as it stands.
- `init` shows every loaded row and does not consult the filter controls, even
  when they still hold earlier choices.

## Model

| member | source | states |
|---|---|---|
| Seqs.Distinct | app.js:152 | `Array.from(new Set(...))` keeps every value, each exactly once, and nothing else |
| Seqs.DistinctFirstOccurrenceOrder | app.js:152 | the distinct values appear in the order of their first occurrence |
| Text.Trim | app.js:26 | the result has no whitespace (ECMAScript WhiteSpace or LineTerminator) at either end |
| Text.TrimIsInfix | app.js:26 | trimming keeps a contiguous infix and removes only whitespace before and after it |
| Text.TrimPadded | app.js:26 | whitespace around a string with non-blank ends is exactly what trimming removes |
| Text.TrimIdempotent | app.js:26 | trimming twice is trimming once |
| Text.LowerIsNa | app.js:27 | a string lower-cases to `na` exactly when it is one of `na`, `nA`, `Na`, `NA` |
| Text.LowerFoldsCapitals | app.js:27 | each ASCII capital moves down to its small letter, every other character stays, and no capital is left |
| Text.LowerIdempotent | app.js:194 | lower-casing an already lower-cased string changes nothing |
| Text.ContainsAt | app.js:198 | `includes` holds exactly when the needle occurs at some offset |
| Text.LexLeTotal | app.js:208 | the code-point order used for sorting compares any two strings |
| Text.LexLeAntisymmetric | app.js:208 | two strings each at most the other are equal |
| Text.LexLeTransitive | app.js:208 | the code-point order used for sorting is transitive |
| Normalizer.Normalize | app.js:24-29 | absent cells give `""`; a present cell gives `""` exactly when its trimmed text is empty, `-`, `null` or some case of `na`; otherwise it gives the trimmed text, with no blank at either end |
| Normalizer.ValueOfCell | app.js:112 | `normalizeValue(r[col])` is `""` for a header the record lacks; a present cell reads as `""` exactly when it trims to a blank or a sentinel, and otherwise as its trimmed text |
| Normalizer.NormalizeIdempotent | app.js:24-29 | normalising a normalised value changes nothing |
| Normalizer.NormalizeKeepsUpperNull | app.js:27 | the `null` sentinel is case-sensitive: `NULL` survives |
| Normalizer.NormalizeDropsPaddedNa | app.js:26-27 | ` Na ` normalises to `""`: the `na` check ignores case and padding |
| Normalizer.NormalizeIgnoresPadding | app.js:26-28 | whitespace around a value with non-blank ends never changes what it normalises to, sentinel or not |
| ColumnResolver.FirstMatch | app.js:43 | the index found is the first header any of the role's patterns accepts, or the header length when none does |
| ColumnResolver.MatchedNameNonEmpty | app.js:44 | no synonym pattern accepts the empty name, so a found header is always truthy |
| ColumnResolver.Resolve | app.js:42-44 | a configured name present in the header is kept; otherwise the first matching header is taken, and the configured name stays exactly when no header matches |
| ColumnResolver.DetectColumns | app.js:31-47 | each role is resolved on its own; every result is a header or the configured name; a role left on a name missing from the header has no matching header |
| ColumnResolver.DetectColumnsIdempotent | app.js:40-45 | detecting again on the detected map changes nothing |
| ColumnResolver.LengthMismatch | app.js:34-37 | a header whose length differs from every synonym's never matches |
| ColumnResolver.EnglishGender | app.js:34 | in the header `Country, Sex` the gender role finds `Sex` |
| ColumnResolver.EnglishNationality | app.js:35 | in the header `Country, Sex` the nationality role finds `Country` |
| ColumnResolver.EnglishVisa | app.js:36 | in the header `Country, Sex` the visa role keeps its configured name |
| ColumnResolver.EnglishSchool | app.js:37 | in the header `Country, Sex` the school role keeps its configured name |
| ColumnResolver.DetectColumnsEnglishHeader | app.js:40-46 | with the shipped Korean names, the header `Country, Sex` maps gender to `Sex` and nationality to `Country`, and leaves visa and school as configured |
| FrequencyTable.Bump | app.js:53 | a key already present keeps the key order and gains one; a new key is appended with count one; all other counts are unchanged |
| FrequencyTable.BumpTotal | app.js:53 | counting one more item raises the total by exactly one |
| FrequencyTable.Tally | app.js:50-54 | the map's keys are the distinct keys in first-occurrence order, each once |
| FrequencyTable.TallyCounts | app.js:50-54 | each entry's count is the number of occurrences of its key |
| FrequencyTable.TallyTotal | app.js:50-54 | the counts add up to the number of items |
| FrequencyTable.InsertByCount | app.js:56 | insertion adds exactly the one entry and its count to the total |
| FrequencyTable.InsertKeepsOrder | app.js:56 | inserting into a table ordered by descending count keeps it ordered |
| FrequencyTable.SortByCount | app.js:56 | the sorted table is a permutation of its input, with the same total, ordered by descending count |
| FrequencyTable.SortKeepsTieOrder | app.js:56 | the sort is stable: if the input is in first-occurrence order, equal counts stay in that order |
| FrequencyTable.SortKeepsKeysDistinct | app.js:56 | sorting never merges or duplicates keys |
| FrequencyTable.DistinctKeysInOrder | app.js:55 | `Array.from(map)` lists keys in first-occurrence order |
| FrequencyTable.GroupKeys | app.js:49-57 | one entry per distinct key, each counting its occurrences (at least one), totals equal to the number of items, descending counts, ties in first-occurrence order |
| FrequencySpec.GroupKeysIsFrequencyTable | app.js:49-57 | the computed table meets the order-based description |
| FrequencySpec.FrequencyTableUnique | app.js:49-57 | any sequence meeting the description is the computed table |
| FrequencySpec.ChainUnique | app.js:56 | two tables strictly ordered by count, then first occurrence, with the same entries are equal |
| FrequencySpec.FrequencyTableEntries | app.js:52-53 | every listed count is at least one, and a value that never occurs is never listed |
| Aggregator.Label | app.js:52 | an empty key is counted under `(không rõ)` and any other key under itself, so no counted key is empty |
| Aggregator.GroupCount | app.js:112 | the table of the rows' keys meets the order-based description, has distinct keys ordered by descending count, and its counts add up to the number of rows |
| Aggregator.GroupCountCoversRows | app.js:51-53 | every row's key is in the table |
| Aggregator.GroupCountEntries | app.js:52-53 | every count is positive and no key is empty |
| Aggregator.MissingColumnIsAllUnknown | app.js:52 | a column no row has gives one entry: the placeholder with every row |
| Aggregator.SliceEnd | app.js:113 | the end index of `slice(0, n)` never exceeds the length |
| Aggregator.TopEntries | app.js:113 | `slice(0, n)` is a prefix of the table, of length `min(n, len)` for `n >= 0` and `max(0, len + n)` for negative `n` |
| Aggregator.TopKeys | app.js:150 | the whitelist is the keys of the top-N entries, a prefix of the table's keys |
| Aggregator.TopKeysOfOrderedTable | app.js:150 | the whitelist is the first `min(n, len)` keys (a negative `n` drops keys from the end), without duplicates, and no key left out outcounts a key kept |
| Aggregator.TopKeysOfGroupCountNonEmpty | app.js:150 | the whitelist never holds the empty key |
| Colors.MakePalette | app.js:64-66 | the push loop returns `n` colours, colour `i` being base colour `i mod 20` |
| Colors.PaletteCycles | app.js:65 | colours repeat with period twenty |
| Colors.PalettePrefix | app.js:65 | a shorter palette is a prefix of a longer one: colour is by position |
| CrossTab.Column | app.js:154 | one count per whitelisted nationality: the rows with that nationality and visa |
| CrossTab.SumColumn | app.js:154 | over distinct nationalities covering every pair, a dataset sums to the number of pairs with its visa |
| CrossTab.ColumnTotalIsSwappedSum | app.js:153-154 | the stacked total at one nationality is the same count read with visa and nationality exchanged |
| CrossTab.RowsTop | app.js:151 | the whitelisted rows are a subsequence of the rows, each with a whitelisted nationality, and every row with a whitelisted nationality is kept, as many times as it occurs |
| CrossTab.Stack | app.js:150-156 | labels are the whitelist; the visas are distinct and are exactly the visa values of the whitelisted rows; dataset `i` is labelled and coloured by position and counts, per nationality, the whitelisted rows with that nationality and visa |
| CrossTab.StackVisaOrder | app.js:152 | the visas appear in the order they first occur among the whitelisted rows |
| CrossTab.StackRowSums | app.js:151-154 | with a duplicate-free whitelist, a dataset sums to the number of whitelisted rows with its visa |
| CrossTab.StackColumnTotals | app.js:151-154 | the datasets stacked at one nationality add up to the number of whitelisted rows with that nationality |
| CrossTab.UnknownNationalityStackIsEmpty | app.js:150-154 | a row with an empty nationality puts the placeholder in the table, yet the placeholder's stacked column is zero unless a cell literally reads it |
| FilterEngine.Keep | app.js:194-199 | a row passes exactly when the gender control is empty or equals its gender, likewise for visa, and the trimmed search term is blank or occurs, ignoring case, in its school |
| FilterEngine.GenderOnly | app.js:196 | with only the gender control set, a row passes exactly when its gender matches |
| FilterEngine.ApplyFilters | app.js:195-200 | the kept rows are a subsequence of all rows, each passes, and every passing row is kept |
| FilterEngine.ApplyFiltersMultiplicity | app.js:195-200 | a passing row keeps every copy; any other row loses them all |
| FilterEngine.EmptyCriteriaKeepAll | app.js:196-198 | empty drop-downs and a blank search box keep every row |
| FilterEngine.ApplyFiltersIdempotent | app.js:195-200 | filtering the filtered rows again changes nothing |
| FilterEngine.GenderNarrowsFurther | app.js:196-198 | adding a gender filter on top of visa and search equals filtering by all three at once |
| FilterEngine.SearchIgnoresCaseAndBlanks | app.js:194 | search terms that agree after trimming and lower-casing select the same rows |
| FilterOptions.InsertLex | app.js:208 | inserting into an ascending list keeps it ascending and adds exactly one element |
| FilterOptions.SortLex | app.js:208 | sorting gives an ascending permutation |
| FilterOptions.DistinctNonEmpty | app.js:208 | the distinct non-empty values, each once |
| FilterOptions.DistinctNonEmptySorted | app.js:208 | duplicate-free, ascending, and holding exactly the non-empty values |
| FilterOptions.Options | app.js:208-209 | a column's choices are duplicate-free, ascending, exactly its non-empty normalised values, and include every row's non-empty value |
| FilterOptions.SortedSetUnique | app.js:208 | two ascending duplicate-free lists with the same elements are equal |
| FilterOptions.OptionsAreTheSortedValues | app.js:208-209 | any ascending duplicate-free listing of the non-empty values is the option list |
| Table.PageSlice | app.js:174-175 | the page holds `min(size, len - start)` rows from `start = (page - 1) * size`, none once `start` passes the end, in order |
| Table.PagesArePrefix | app.js:174-175 | the first `n` pages laid end to end are the first `n * size` rows: paging loses and repeats nothing |
| Table.RowOnItsPage | app.js:174-175 | row `k` is entry `k mod size` of page `k / size + 1` |
| Table.RenderTable | app.js:172-187 | at most `size` rows, row `i` showing record `start + i` |
| Dashboard.ColumnOr | app.js:11-14 | an absent or empty parameter falls back, any other replaces the default |
| Dashboard.NumberOr | app.js:17-18 | only `0` and `NaN` fall back; any other number, negative included, replaces the default |
| Dashboard.ResolveConfig | app.js:8-21 | each column comes from its own parameter or its own default, each top-N from its own number parameter or default, the page size always from the defaults; non-empty columns and non-zero top-N values stay so |
| Dashboard.ResolveConfigIdempotent | app.js:8-21 | resolving the same query against the configuration it produced changes nothing |
| Dashboard.FullQueryOverridesDefaults | app.js:11-18 | when every parameter is given, non-empty and non-zero, the result is independent of the defaults and its columns are the parameters |
| Dashboard.NoQueryKeepsDefaults | app.js:8-21 | without parameters the defaults apply unchanged |
| Dashboard.NegativeTopNDropsFromTheEnd | app.js:17 | `topN=-3` is kept and the nationality chart shows all but the last three entries |
| Dashboard.Load | app.js:239-244 | all rows are shown from page 1; with rows, the columns are `detectColumns` over the first record's headers, so each role gets its configured name or a header of the first record, and configured names the first record has are kept; an empty dataset keeps the configured names |
| Dashboard.LoadIsUnfiltered | app.js:239-244 | the state right after loading is the state that clearing every filter control produces |
| Dashboard.Refilter | app.js:195-201 | the filtered rows are recomputed from all rows: an order-preserving subsequence in which each passing row keeps every copy and every other row has none; the page returns to 1 |
| Dashboard.RefilterForgetsEarlierCriteria | app.js:195-201 | filters do not accumulate: only the latest criteria decide |
| Dashboard.ClearingFiltersShowsAll | app.js:195-201 | clearing every control shows every row again |
| Dashboard.NationalityBars | app.js:112-113 | the bar chart shows a prefix of the frequency table of `min(topN, len)` entries, or `max(0, len + topN)` for a negative `topN` |
| Dashboard.StackWhitelist | app.js:150 | the whitelist is a duplicate-free prefix of the table's keys of `min(n, len)` keys, or `max(0, len + n)` for a negative `n` |
| Dashboard.RenderCharts | app.js:108-156 | all three charts are drawn from the filtered rows: the bars are the top `topN` entries of the nationality table, the pie is the whole gender table, the stacked chart uses the first `stackedTopN` nationality keys as its distinct labels; bar and pie colours follow the palette by position |
| Dashboard.RenderChartsCountsFiltered | app.js:134-150 | the pie's counts add up to the number of filtered rows, and with equal top-N sizes the stacked chart's labels are the bar chart's keys |
| Dashboard.FilterChoices | app.js:206-209 | both drop-downs are ascending, duplicate-free, and offer exactly the non-empty normalised values of all rows |
| Dashboard.GenderChoiceSelectsSomething | app.js:196 | choosing any offered gender keeps at least one row |
| Dashboard.EmptyDataset | app.js:239-247 | an empty dataset draws empty charts, an empty table and no filter choices |
| Dashboard.EmptyGroupCount | app.js:49-57 | no items give an empty table |
| Scenarios.CountByNationality | app.js:112 | rows with nationalities VN, VN, KR count as VN 2, then KR 1 |
| Scenarios.SampleTable | app.js:49-57 | the keys VN, VN, KR give the table VN 2, KR 1 |
| Scenarios.FilterByGenderOf | app.js:196 | among rows with genders M, F, M, choosing M keeps the first and third, in order |
| Scenarios.FilterByGender | app.js:195-200 | on the sample rows, choosing M keeps rows one and three |

## Left out

- Everything that touches the browser is left out: the DOM, Chart.js objects and their destruction, `downloadCsv`, `alert`, event wiring and the data-source drop-down. The model keeps only the data each draws from.
- CSV parsing (`loadCsv`, Papa Parse) is not modelled; a dataset is a sequence of header-to-text maps. A cell of `null` and a missing cell both read as absent, and both normalise to `""`.
- `Object.keys(rawRows[0])` is a parameter of `Dashboard.Load`, required to list each of the first record's headers exactly once, because map key order is not part of a Dafny map.
- Reading `window.location.search` is left out: the query is a `Query` value whose number parameters are already the result of `Number(...)`.
- Dashboard.ResolveConfig: number parameters are integers, so a fractional `topN` such as `2.5` is not modelled, and neither is `slice` truncating one. `Number('Infinity')` is not modelled either: `Infinity || d` keeps it, so `topN=Infinity` shows every entry and `topN=-Infinity` none, which an `Option<int>` cannot express.
- A column name that a plain object inherits from `Object.prototype` (`constructor`, `toString`, ...) is not modelled. `r['constructor']` is a function that normalises to its source text, so `?colGender=constructor` would give every row the same non-empty gender; the model reads such a header as missing.
- The shipped configuration in `config.js` appears as the constants `DefaultColumns` and `DefaultConfig`; a missing `window.APP_CONFIG` is not modelled.
- FilterEngine.Keep: lower-casing is ASCII only. `toLowerCase` in the school search also folds non-ASCII letters, so the model is exact only for ASCII-cased school names and search terms.
- Dashboard.GenderChoiceSelectsSomething: holds for the option values as modelled, which are the normalised cells. The markup `<option>${g}</option>` has no `value` attribute, so the value read back is the option's text after HTML parsing, with runs of whitespace collapsed and markup interpreted. A gender such as `Nam  nữ` (two spaces) or one containing `<` or `&` then selects no row.
- FilterOptions.Options: the order compares characters by code point. `sort()` compares UTF-16 code units, which differs only between characters above U+FFFF and characters from U+E000 to U+FFFF.
- `tablePage` is never set to anything other than 1 in the code. `Table.PageSlice` models any page, but no paging control is modelled.
- The `try`/`catch` around loading, and a non-array parse result becoming `[]`, are not modelled beyond `Dashboard.Load` accepting an empty dataset.

=== FILE: aggregator.dfy ===
/** `groupCount` over rows, and the top-N cut of its result. */
module Aggregator {
  import opened Seqs
  import opened Normalizer
  import opened FrequencyTable
  import opened FrequencySpec

  /** The label counted for rows whose key is empty ("unknown"). */
  const Unknown := "(không rõ)"

  /** `keyFn(it) || '(không rõ)'`: an empty key is counted under the unknown label. */
  function Label(v: string): (l: string)
    ensures l != ""
    ensures v == "" ==> l == Unknown
    ensures v != "" ==> l == v
  {
    if v == "" then Unknown else v
  }

  /** The key `groupCount` counts for each row: its normalised cell in `column`,
      or the unknown label when that is empty. */
  function RowKeys(rows: seq<Row>, column: string): (ks: seq<string>)
    ensures |ks| == |rows|
    ensures forall i :: 0 <= i < |rows| ==> ks[i] == Label(Value(rows[i], column))
    ensures "" !in ks
  {
    seq(|rows|, i requires 0 <= i < |rows| => Label(Value(rows[i], column)))
  }

  /** `groupCount(rows, r => normalizeValue(r[column]))`: the frequency table of
      the rows' keys, one entry per distinct key, by descending count, ties in
      order of first occurrence. */
  function GroupCount(rows: seq<Row>, column: string): (r: seq<Entry>)
    ensures IsFrequencyTable(r, RowKeys(rows, column))
    ensures NoDup(Keys(r)) && ByCountDesc(r)
    ensures Total(r) == |rows|
  {
    GroupKeysIsFrequencyTable(RowKeys(rows, column));
    GroupKeys(RowKeys(rows, column))
  }

  /** Every row is counted under its label. */
  lemma GroupCountCoversRows(rows: seq<Row>, column: string)
    ensures forall i :: 0 <= i < |rows| ==> Label(Value(rows[i], column)) in Keys(GroupCount(rows, column))
  {
    var ks := RowKeys(rows, column);
    forall i | 0 <= i < |rows|
      ensures Label(Value(rows[i], column)) in Keys(GroupCount(rows, column))
    {
      assert ks[i] in Keys(GroupCount(rows, column));
    }
  }

  /** Every count is positive and no key is empty. */
  lemma GroupCountEntries(rows: seq<Row>, column: string)
    ensures forall i :: 0 <= i < |GroupCount(rows, column)| ==>
      GroupCount(rows, column)[i].count >= 1 && GroupCount(rows, column)[i].key != ""
  {
    FrequencyTableEntries(GroupCount(rows, column), RowKeys(rows, column), "");
  }

  /** A key occurring `n` times in `ks` and nowhere else is counted `n` times. */
  lemma {:induction false} MultisetOfConstant(ks: seq<string>, x: string)
    requires forall i :: 0 <= i < |ks| ==> ks[i] == x
    ensures multiset(ks)[x] == |ks|
  {
    if ks != [] {
      MultisetOfConstant(ks[1..], x);
      assert ks == [ks[0]] + ks[1..];
    }
  }

  /** A column no row has is one bar: every row counted under the unknown label. */
  lemma MissingColumnIsAllUnknown(rows: seq<Row>, column: string)
    requires rows != []
    requires forall k :: 0 <= k < |rows| ==> column !in rows[k]
    ensures GroupCount(rows, column) == [Entry(Unknown, |rows|)]
  {
    var ks := RowKeys(rows, column);
    var r := [Entry(Unknown, |rows|)];
    assert forall i :: 0 <= i < |ks| ==> ks[i] == Unknown;
    MultisetOfConstant(ks, Unknown);
    assert Keys(r) == [Unknown];
    assert IsFrequencyTable(r, ks) by {
      assert ks[0] == Unknown;
    }
    FrequencyTableUnique(r, ks);
  }

  // ---------- Top-N ----------

  /** The end index `Array.prototype.slice(0, n)` uses on a sequence of length
      `len`: a negative `n` counts back from the end. */
  function SliceEnd(len: nat, n: int): (e: nat)
    ensures e <= len
  {
    if n < 0 then (if len + n < 0 then 0 else len + n)
    else if n < len then n
    else len
  }

  /** `counts.slice(0, n)`: a prefix of `counts`, of length `min(n, |counts|)`
      when `n >= 0`, and short of the last `-n` entries when `n < 0`. */
  function TopEntries(counts: seq<Entry>, n: int): (r: seq<Entry>)
    ensures |r| <= |counts|
    ensures r == counts[..|r|]
    ensures n >= 0 ==> |r| == if n < |counts| then n else |counts|
    ensures n < 0 ==> |r| == if |counts| + n < 0 then 0 else |counts| + n
  {
    counts[..SliceEnd(|counts|, n)]
  }

  /** `counts.slice(0, n).map(d => d.key)`: the keys of the top-N entries, in
      order, as the whitelist of the stacked chart. */
  function TopKeys(counts: seq<Entry>, n: int): (w: seq<string>)
    ensures |w| == |TopEntries(counts, n)| <= |counts|
    ensures w == Keys(counts)[..|w|]
  {
    var w := Keys(TopEntries(counts, n));
    assert forall i :: 0 <= i < |w| ==> w[i] == Keys(counts)[i];
    w
  }

  /** The whitelist cut from a table ordered by descending count with distinct
      keys: a duplicate-free prefix of its keys, of length `min(n, |counts|)` for
      `n >= 0` (negative `n` drops `-n` keys from the end), and no key left out
      has a larger count than a key kept. */
  lemma TopKeysOfOrderedTable(counts: seq<Entry>, n: int)
    requires NoDup(Keys(counts)) && ByCountDesc(counts)
    ensures TopKeys(counts, n) == Keys(counts)[..|TopKeys(counts, n)|]
    ensures n >= 0 ==> |TopKeys(counts, n)| == if n < |counts| then n else |counts|
    ensures n < 0 ==> |TopKeys(counts, n)| == if |counts| + n < 0 then 0 else |counts| + n
    ensures NoDup(TopKeys(counts, n))
    ensures forall i, j :: 0 <= i < |TopKeys(counts, n)| <= j < |counts| ==> counts[i].count >= counts[j].count
  {
    var w := TopKeys(counts, n);
    assert forall i :: 0 <= i < |w| ==> w[i] == Keys(counts)[i];
  }

  /** The stacked chart's whitelist never holds the empty key, though it may hold
      the unknown label. */
  lemma TopKeysOfGroupCountNonEmpty(rows: seq<Row>, column: string, n: int)
    ensures forall i :: 0 <= i < |TopKeys(GroupCount(rows, column), n)| ==>
      TopKeys(GroupCount(rows, column), n)[i] != ""
  {
    var counts := GroupCount(rows, column);
    GroupCountEntries(rows, column);
    var w := TopKeys(counts, n);
    assert forall i :: 0 <= i < |w| ==> w[i] == counts[i].key;
  }
}

=== FILE: colors.dfy ===
/** Chart colours (`makePalette`): a fixed list of twenty colours used cyclically,
    by position and not by key. */
module Colors {
  /** The twenty base colours, in order. */
  const Base: seq<string> := [
    "#5cc8ff", "#7c8cff", "#6ee7b7", "#fbbf24", "#f472b6", "#60a5fa", "#f87171", "#34d399", "#a78bfa", "#f59e0b",
    "#22d3ee", "#fb7185", "#84cc16", "#eab308", "#14b8a6", "#ef4444", "#8b5cf6", "#38bdf8", "#d946ef", "#10b981"
  ]

  /** The palette of `n` colours as a value. */
  function Palette(n: nat): (r: seq<string>)
    ensures |r| == n
    ensures forall i :: 0 <= i < n ==> r[i] == Base[i % |Base|]
  {
    seq(n, i requires 0 <= i < n => Base[i % |Base|])
  }

  /** `makePalette(n)`: the loop that pushes `base[i % base.length]` for each `i < n`. */
  method MakePalette(n: nat) returns (colors: seq<string>)
    ensures |colors| == n
    ensures forall i :: 0 <= i < n ==> colors[i] == Base[i % |Base|]
  {
    colors := [];
    var i := 0;
    while i < n
      invariant 0 <= i <= n
      invariant |colors| == i
      invariant colors == Palette(i)
    {
      assert Palette(i + 1) == Palette(i) + [Base[i % |Base|]];
      colors := colors + [Base[i % |Base|]];
      i := i + 1;
    }
  }

  /** The colours repeat with period twenty. */
  lemma PaletteCycles(n: nat, i: nat)
    requires i + |Base| < n
    ensures Palette(n)[i + |Base|] == Palette(n)[i]
  {
    var b := |Base|;
    assert b > 0 && (i + b) % b == i % b;
  }

  /** A shorter palette is a prefix of a longer one, so a position keeps its colour
      whatever the number of keys. */
  lemma PalettePrefix(m: nat, n: nat)
    requires m <= n
    ensures Palette(m) == Palette(n)[..m]
  {
  }
}

=== FILE: column_resolver.dfy ===
/** The column-role resolver (`detectColumns`): maps each of the four roles to a
    header name, keeping a configured name that exists and otherwise taking
    the first header that matches one of the role's synonyms. */
module ColumnResolver {
  import opened Text
  import opened Seqs

  datatype Role = Gender | Nationality | Visa | School

  /** A header name per role. */
  datatype ColumnMap = ColumnMap(gender: string, nationality: string, visa: string, school: string) {
    function Get(role: Role): string {
      match role
      case Gender => gender
      case Nationality => nationality
      case Visa => visa
      case School => school
    }
  }

  /** The column names the configuration ships with. */
  const DefaultColumns := ColumnMap("성별", "국적명", "체류자격", "학교명")

  /** The accepted header names of each role, in the order the patterns are listed.
      Every pattern is an anchored literal matched case-insensitively. */
  function Synonyms(role: Role): seq<string> {
    match role
    case Gender => ["성별", "gender", "sex"]
    case Nationality => ["국적명", "국적", "nationality", "country"]
    case Visa => ["체류자격", "visa", "status"]
    case School => ["학교명", "학교", "university", "school"]
  }

  /** An anchored, case-insensitive pattern `^name$` accepts `h`. Comparing
      ASCII lower-casings decides this exactly for the synonyms below: each is
      ASCII or Hangul (which has no case), and the pattern's case folding never
      maps a non-ASCII character onto an ASCII one. */
  predicate NameMatches(h: string, name: string) {
    Lower(h) == Lower(name)
  }

  /** Some pattern of `role` accepts `h`. */
  predicate MatchesRole(role: Role, h: string) {
    exists k :: 0 <= k < |Synonyms(role)| && NameMatches(h, Synonyms(role)[k])
  }

  /** `header.find(...)`: the index of the first header entry the role's patterns
      accept, or `|header|` when none does. */
  function FirstMatch(header: seq<string>, role: Role): (i: nat)
    ensures i <= |header|
    ensures i < |header| ==> MatchesRole(role, header[i])
    ensures forall k :: 0 <= k < i ==> !MatchesRole(role, header[k])
  {
    if |header| == 0 then 0
    else if MatchesRole(role, header[0]) then 0
    else 1 + FirstMatch(header[1..], role)
  }

  /** No pattern accepts the empty header name, so a found header is always truthy. */
  lemma MatchedNameNonEmpty(role: Role, h: string)
    requires MatchesRole(role, h)
    ensures h != ""
  {
    var k :| 0 <= k < |Synonyms(role)| && NameMatches(h, Synonyms(role)[k]);
    assert |Lower(h)| == |Synonyms(role)[k]| > 0;
  }

  /** The resolution of one role. */
  function Resolve(header: seq<string>, configured: string, role: Role): (r: string)
    ensures configured in header ==> r == configured
    ensures configured !in header && r in header ==>
      MatchesRole(role, r) && forall k :: 0 <= k < FirstIndex(header, r) ==> !MatchesRole(role, header[k])
    ensures configured !in header ==>
      (r in header <==> exists k :: 0 <= k < |header| && MatchesRole(role, header[k]))
    ensures r in header || r == configured
  {
    if configured in header then configured
    else
      var i := FirstMatch(header, role);
      if i < |header| && header[i] != "" then
        assert FirstIndex(header, header[i]) == i;
        header[i]
      else
        assert i == |header| by {
          if i < |header| {
            MatchedNameNonEmpty(role, header[i]);
          }
        }
        configured
  }

  /** `detectColumns`: every role resolved independently against the header. */
  function DetectColumns(header: seq<string>, configured: ColumnMap): (r: ColumnMap)
    ensures forall role :: r.Get(role) == Resolve(header, configured.Get(role), role)
    ensures forall role :: r.Get(role) in header || r.Get(role) == configured.Get(role)
    ensures forall role :: configured.Get(role) in header ==> r.Get(role) == configured.Get(role)
    ensures forall role :: r.Get(role) !in header ==>
      forall k :: 0 <= k < |header| ==> !MatchesRole(role, header[k])
  {
    var r := ColumnMap(
      Resolve(header, configured.gender, Gender),
      Resolve(header, configured.nationality, Nationality),
      Resolve(header, configured.visa, Visa),
      Resolve(header, configured.school, School));
    ResolvedPerRole(header, configured, r);
    r
  }

  /** Reading a role from the detected map reads that role's resolution. */
  lemma ResolvedPerRole(header: seq<string>, configured: ColumnMap, r: ColumnMap)
    requires r == ColumnMap(Resolve(header, configured.gender, Gender),
                            Resolve(header, configured.nationality, Nationality),
                            Resolve(header, configured.visa, Visa),
                            Resolve(header, configured.school, School))
    ensures forall role :: r.Get(role) == Resolve(header, configured.Get(role), role)
  {
    forall role
      ensures r.Get(role) == Resolve(header, configured.Get(role), role)
    {
      match role {
        case Gender =>
        case Nationality =>
        case Visa =>
        case School =>
      }
    }
  }

  /** Resolving an already resolved map changes nothing. */
  lemma DetectColumnsIdempotent(header: seq<string>, configured: ColumnMap)
    ensures DetectColumns(header, DetectColumns(header, configured)) == DetectColumns(header, configured)
  {
  }

  /** A header that differs in length from every synonym of a role never matches it. */
  lemma LengthMismatch(role: Role, h: string)
    requires forall k :: 0 <= k < |Synonyms(role)| ==> |Synonyms(role)[k]| != |h|
    ensures !MatchesRole(role, h)
  {
  }

  /** In the header `Country, Sex`, gender is found at `Sex`. */
  lemma EnglishGender(header: seq<string>)
    requires header == ["Country", "Sex"]
    ensures Resolve(header, DefaultColumns.gender, Gender) == "Sex"
  {
    LengthMismatch(Gender, "Country");
    assert MatchesRole(Gender, "Sex") by {
      assert Lower("Sex") == "sex" == Lower(Synonyms(Gender)[2]);
    }
    assert header[1..] == ["Sex"];
    assert FirstMatch(header, Gender) == 1;
  }

  /** In the header `Country, Sex`, nationality is found at `Country`. */
  lemma EnglishNationality(header: seq<string>)
    requires header == ["Country", "Sex"]
    ensures Resolve(header, DefaultColumns.nationality, Nationality) == "Country"
  {
    assert MatchesRole(Nationality, "Country") by {
      assert Lower("Country") == "country" == Lower(Synonyms(Nationality)[3]);
    }
    assert FirstMatch(header, Nationality) == 0;
  }

  /** In the header `Country, Sex`, no visa column is found. */
  lemma EnglishVisa(header: seq<string>)
    requires header == ["Country", "Sex"]
    ensures Resolve(header, DefaultColumns.visa, Visa) == DefaultColumns.visa
  {
    LengthMismatch(Visa, "Country");
    LengthMismatch(Visa, "Sex");
    assert header[1..] == ["Sex"];
    assert header[1..][1..] == [];
    assert FirstMatch(header, Visa) == 2;
  }

  /** In the header `Country, Sex`, no school column is found. */
  lemma EnglishSchool(header: seq<string>)
    requires header == ["Country", "Sex"]
    ensures Resolve(header, DefaultColumns.school, School) == DefaultColumns.school
  {
    LengthMismatch(School, "Country");
    assert !MatchesRole(School, "Sex") by {
      assert Lower("Sex")[0] == 's';
      assert Lower(Synonyms(School)[0])[0] == '학';
    }
    assert header[1..] == ["Sex"];
    assert header[1..][1..] == [];
    assert FirstMatch(header, School) == 2;
  }

  /** English header names are found when the configured Korean names are absent;
      roles with no matching header keep their configured names. */
  lemma DetectColumnsEnglishHeader(header: seq<string>)
    requires header == ["Country", "Sex"]
    ensures DetectColumns(header, DefaultColumns) == ColumnMap("Sex", "Country", "체류자격", "학교명")
  {
    EnglishGender(header);
    EnglishNationality(header);
    EnglishVisa(header);
    EnglishSchool(header);
  }
}

=== FILE: cross_tab.dfy ===
/** The stacked "visa by top nationality" chart: the rows whose nationality is
    whitelisted, the visa values seen among them, and one count per
    (visa, whitelisted nationality) pair. */
module CrossTab {
  import opened Seqs
  import opened Normalizer
  import opened Aggregator
  import opened Colors
  import opened FrequencyTable

  /** A row reduced to its normalised (nationality, visa) pair. */
  datatype Pair = Pair(primary: string, secondary: string)

  /** One stacked dataset: the visa's label, its count per whitelisted nationality, its colour. */
  datatype Series = Series(name: string, data: seq<nat>, color: string)

  /** The stacked chart: nationality labels, the visa values behind the datasets, the datasets. */
  datatype Stacked = Stacked(labels: seq<string>, visas: seq<string>, series: seq<Series>)

  // ---------- Counting pairs ----------

  /** Pairs equal to `Pair(a, b)`. */
  function JointCount(ps: seq<Pair>, a: string, b: string): nat {
    if ps == [] then 0 else (if ps[0] == Pair(a, b) then 1 else 0) + JointCount(ps[1..], a, b)
  }

  /** Pairs whose first component is `a`. */
  function CountPrimary(ps: seq<Pair>, a: string): nat {
    if ps == [] then 0 else (if ps[0].primary == a then 1 else 0) + CountPrimary(ps[1..], a)
  }

  /** Pairs whose second component is `b`. */
  function CountSecondary(ps: seq<Pair>, b: string): nat {
    if ps == [] then 0 else (if ps[0].secondary == b then 1 else 0) + CountSecondary(ps[1..], b)
  }

  /** The pairs with their components exchanged. */
  function Swap(ps: seq<Pair>): (r: seq<Pair>)
    ensures |r| == |ps|
    ensures forall k :: 0 <= k < |ps| ==> r[k] == Pair(ps[k].secondary, ps[k].primary)
  {
    if ps == [] then [] else [Pair(ps[0].secondary, ps[0].primary)] + Swap(ps[1..])
  }

  lemma {:induction false} SwapCounts(ps: seq<Pair>, a: string, b: string)
    ensures JointCount(Swap(ps), b, a) == JointCount(ps, a, b)
    ensures CountSecondary(Swap(ps), a) == CountPrimary(ps, a)
  {
    if ps != [] {
      SwapCounts(ps[1..], a, b);
      assert Swap(ps)[1..] == Swap(ps[1..]);
    }
  }

  /** The sum of a sequence of counts. */
  function Sum(xs: seq<nat>): nat {
    if xs == [] then 0 else xs[0] + Sum(xs[1..])
  }

  /** One dataset's counts: for each key `a` of `keys`, the pairs equal to `Pair(a, b)`. */
  function Column(ps: seq<Pair>, keys: seq<string>, b: string): (data: seq<nat>)
    ensures |data| == |keys|
    ensures forall j :: 0 <= j < |keys| ==> data[j] == JointCount(ps, keys[j], b)
  {
    if keys == [] then [] else [JointCount(ps, keys[0], b)] + Column(ps, keys[1..], b)
  }

  /** Positions of `keys` holding the first component of `p`, when the second is `b`. */
  function Hits(p: Pair, keys: seq<string>, b: string): nat {
    if keys == [] then 0 else (if p == Pair(keys[0], b) then 1 else 0) + Hits(p, keys[1..], b)
  }

  lemma {:induction false} ColumnOfNothing(keys: seq<string>, b: string)
    ensures Sum(Column([], keys, b)) == 0
  {
    if keys != [] {
      ColumnOfNothing(keys[1..], b);
    }
  }

  lemma {:induction false} ColumnCons(p: Pair, ps: seq<Pair>, keys: seq<string>, b: string)
    ensures Sum(Column([p] + ps, keys, b)) == Sum(Column(ps, keys, b)) + Hits(p, keys, b)
  {
    if keys != [] {
      ColumnCons(p, ps, keys[1..], b);
      assert ([p] + ps)[1..] == ps;
    }
  }

  /** With distinct keys, a pair whose first component is a key is hit exactly
      once when its second component is `b`, and never otherwise. */
  lemma {:induction false} HitsOnce(p: Pair, keys: seq<string>, b: string)
    requires NoDup(keys) && p.primary in keys
    ensures Hits(p, keys, b) == if p.secondary == b then 1 else 0
  {
    if keys[0] != p.primary {
      NoDupTail(keys);
      HitsOnce(p, keys[1..], b);
    } else {
      NoDupTail(keys);
      HitsNone(p, keys[1..], b);
    }
  }

  lemma {:induction false} HitsNone(p: Pair, keys: seq<string>, b: string)
    requires p.primary !in keys
    ensures Hits(p, keys, b) == 0
  {
    if keys != [] {
      HitsNone(p, keys[1..], b);
    }
  }

  /** Summing one dataset over a duplicate-free list of keys that covers every
      pair's first component counts the pairs whose second component is `b`. */
  lemma {:induction false} SumColumn(ps: seq<Pair>, keys: seq<string>, b: string)
    requires NoDup(keys)
    requires forall k :: 0 <= k < |ps| ==> ps[k].primary in keys
    ensures Sum(Column(ps, keys, b)) == CountSecondary(ps, b)
  {
    if ps == [] {
      ColumnOfNothing(keys, b);
    } else {
      SumColumn(ps[1..], keys, b);
      assert ps == [ps[0]] + ps[1..];
      ColumnCons(ps[0], ps[1..], keys, b);
      HitsOnce(ps[0], keys, b);
    }
  }

  /** The sum of position `j` over all datasets. */
  function ColumnTotal(series: seq<Series>, j: nat): nat {
    if series == [] then 0
    else (if j < |series[0].data| then series[0].data[j] else 0) + ColumnTotal(series[1..], j)
  }

  lemma {:induction false} ColumnTotalIsSwappedSum(series: seq<Series>, ps: seq<Pair>, keys: seq<string>,
                                                   visas: seq<string>, j: nat)
    requires j < |keys| && |series| == |visas|
    requires forall i :: 0 <= i < |series| ==> series[i].data == Column(ps, keys, visas[i])
    ensures ColumnTotal(series, j) == Sum(Column(Swap(ps), visas, keys[j]))
  {
    if series != [] {
      ColumnTotalIsSwappedSum(series[1..], ps, keys, visas[1..], j);
      SwapCounts(ps, keys[j], visas[0]);
    }
  }

  // ---------- The stacked chart ----------

  /** `rowsTop`: the rows whose normalised nationality is whitelisted, in their
      original order; a row is kept exactly when its nationality is in the whitelist. */
  function RowsTop(rows: seq<Row>, natCol: string, whitelist: seq<string>): (r: seq<Row>)
    ensures IsSubseq(r, rows)
    ensures forall i :: 0 <= i < |r| ==> Value(r[i], natCol) in whitelist
    ensures forall k :: 0 <= k < |rows| && Value(rows[k], natCol) in whitelist ==> rows[k] in r
    ensures forall x :: multiset(r)[x] == if Value(x, natCol) in whitelist then multiset(rows)[x] else 0
  {
    FilterIsSubseq(rows, (r: Row) => Value(r, natCol) in whitelist);
    FilterMultiplicityAll(rows, (r: Row) => Value(r, natCol) in whitelist);
    Filter(rows, (r: Row) => Value(r, natCol) in whitelist)
  }

  /** Each row's normalised (nationality, visa) pair. */
  function Pairs(rows: seq<Row>, natCol: string, visaCol: string): (ps: seq<Pair>)
    ensures |ps| == |rows|
    ensures forall k :: 0 <= k < |rows| ==> ps[k] == Pair(Value(rows[k], natCol), Value(rows[k], visaCol))
  {
    seq(|rows|, k requires 0 <= k < |rows| => Pair(Value(rows[k], natCol), Value(rows[k], visaCol)))
  }

  /** The datasets of the stacked chart, one per visa value, coloured by position. */
  function MakeSeries(ps: seq<Pair>, whitelist: seq<string>, visas: seq<string>): (series: seq<Series>)
    ensures |series| == |visas|
    ensures forall i :: 0 <= i < |visas| ==>
      series[i] == Series(Label(visas[i]), Column(ps, whitelist, visas[i]), Palette(|visas|)[i])
  {
    seq(|visas|, i requires 0 <= i < |visas| =>
      Series(Label(visas[i]), Column(ps, whitelist, visas[i]), Palette(|visas|)[i]))
  }

  /** The stacked chart for a whitelist of nationalities. */
  function Stack(rows: seq<Row>, natCol: string, visaCol: string, whitelist: seq<string>): (st: Stacked)
    ensures st.labels == whitelist
    ensures |st.series| == |st.visas|
    ensures forall i :: 0 <= i < |st.series| ==> |st.series[i].data| == |whitelist|
    ensures NoDup(st.visas)
    ensures forall i :: 0 <= i < |st.visas| ==> st.visas[i] in Values(RowsTop(rows, natCol, whitelist), visaCol)
    ensures forall k :: 0 <= k < |RowsTop(rows, natCol, whitelist)| ==>
      Value(RowsTop(rows, natCol, whitelist)[k], visaCol) in st.visas
    ensures forall i :: 0 <= i < |st.series| ==>
      st.series[i].name == Label(st.visas[i]) && st.series[i].color == Base[i % |Base|]
    ensures forall i, j :: 0 <= i < |st.series| && 0 <= j < |whitelist| ==>
      st.series[i].data[j] == JointCount(Pairs(RowsTop(rows, natCol, whitelist), natCol, visaCol), whitelist[j], st.visas[i])
  {
    var top := RowsTop(rows, natCol, whitelist);
    var visas := Distinct(Values(top, visaCol));
    Stacked(whitelist, visas, MakeSeries(Pairs(top, natCol, visaCol), whitelist, visas))
  }

  /** The visa values appear in the order they first occur among the whitelisted rows. */
  lemma StackVisaOrder(rows: seq<Row>, natCol: string, visaCol: string, whitelist: seq<string>, i: int, j: int)
    requires 0 <= i < j < |Stack(rows, natCol, visaCol, whitelist).visas|
    ensures var vs := Values(RowsTop(rows, natCol, whitelist), visaCol);
      var st := Stack(rows, natCol, visaCol, whitelist);
      FirstIndex(vs, st.visas[i]) < FirstIndex(vs, st.visas[j])
  {
    DistinctFirstOccurrenceOrder(Values(RowsTop(rows, natCol, whitelist), visaCol), i, j);
  }

  /** Summing one visa's dataset gives the number of whitelisted rows with that
      visa, provided the whitelist has no duplicates. */
  lemma StackRowSums(rows: seq<Row>, natCol: string, visaCol: string, whitelist: seq<string>, i: int)
    requires NoDup(whitelist)
    requires 0 <= i < |Stack(rows, natCol, visaCol, whitelist).series|
    ensures var st := Stack(rows, natCol, visaCol, whitelist);
      Sum(st.series[i].data) == CountSecondary(Pairs(RowsTop(rows, natCol, whitelist), natCol, visaCol), st.visas[i])
  {
    var ps := Pairs(RowsTop(rows, natCol, whitelist), natCol, visaCol);
    PairsOfRowsTopWhitelisted(rows, natCol, visaCol, whitelist);
    SumColumn(ps, whitelist, Stack(rows, natCol, visaCol, whitelist).visas[i]);
  }

  /** Every whitelisted row's pair has a whitelisted nationality. */
  lemma PairsOfRowsTopWhitelisted(rows: seq<Row>, natCol: string, visaCol: string, whitelist: seq<string>)
    ensures var ps := Pairs(RowsTop(rows, natCol, whitelist), natCol, visaCol);
      forall k :: 0 <= k < |ps| ==> ps[k].primary in whitelist
  {
  }

  /** Summing position `j` over all datasets gives the number of whitelisted
      rows whose nationality is `whitelist[j]`. */
  lemma StackColumnTotals(rows: seq<Row>, natCol: string, visaCol: string, whitelist: seq<string>, j: int)
    requires 0 <= j < |whitelist|
    ensures var st := Stack(rows, natCol, visaCol, whitelist);
      ColumnTotal(st.series, j) == CountPrimary(Pairs(RowsTop(rows, natCol, whitelist), natCol, visaCol), whitelist[j])
  {
    var top := RowsTop(rows, natCol, whitelist);
    var ps := Pairs(top, natCol, visaCol);
    var st := Stack(rows, natCol, visaCol, whitelist);
    ColumnTotalIsSwappedSum(st.series, ps, whitelist, st.visas, j);
    forall k | 0 <= k < |Swap(ps)|
      ensures Swap(ps)[k].primary in st.visas
    {
      assert Swap(ps)[k].primary == Value(top[k], visaCol);
    }
    SumColumn(Swap(ps), st.visas, whitelist[j]);
    SwapCounts(ps, whitelist[j], "");
  }

  lemma {:induction false} CountPrimaryAbsent(ps: seq<Pair>, a: string)
    requires forall k :: 0 <= k < |ps| ==> ps[k].primary != a
    ensures CountPrimary(ps, a) == 0
  {
    if ps != [] {
      CountPrimaryAbsent(ps[1..], a);
    }
  }

  /** A row whose nationality is empty is counted under the unknown label in the
      nationality chart, so that label can enter the whitelist; but the stacked
      chart matches raw normalised nationalities against the whitelist, so the
      unknown label's stack is empty unless some cell literally spells it. */
  lemma UnknownNationalityStackIsEmpty(rows: seq<Row>, natCol: string, visaCol: string,
                                       whitelist: seq<string>, k0: int, j: int)
    requires 0 <= k0 < |rows| && Value(rows[k0], natCol) == ""
    requires forall k :: 0 <= k < |rows| ==> Value(rows[k], natCol) != Unknown
    requires 0 <= j < |whitelist| && whitelist[j] == Unknown
    ensures Unknown in Keys(GroupCount(rows, natCol))
    ensures ColumnTotal(Stack(rows, natCol, visaCol, whitelist).series, j) == 0
  {
    GroupCountCoversRows(rows, natCol);
    assert Label(Value(rows[k0], natCol)) == Unknown;
    var top := RowsTop(rows, natCol, whitelist);
    var ps := Pairs(top, natCol, visaCol);
    forall k | 0 <= k < |ps|
      ensures ps[k].primary != Unknown
    {
      assert top[k] in rows;
    }
    CountPrimaryAbsent(ps, Unknown);
    StackColumnTotals(rows, natCol, visaCol, whitelist, j);
  }
}

=== FILE: dashboard.dfy ===
/** The dashboard's state and the steps that change it: configuration from the
    URL query, loading a dataset, applying filters, and what is drawn from the
    state (charts, table page, filter choices). */
module Dashboard {
  import opened Wrappers
  import opened Text
  import opened Seqs
  import opened Normalizer
  import opened ColumnResolver
  import opened FrequencyTable
  import opened Aggregator
  import opened Colors
  import opened CrossTab
  import opened FilterEngine
  import opened FilterOptions
  import opened Table

  // ---------- Configuration ----------

  /** Column names, the two top-N sizes and the table's page size. */
  datatype Config = Config(columns: ColumnMap, nationalityTopN: int, stackedTopN: int, pageSize: nat)

  /** The shipped defaults. */
  const DefaultConfig := Config(DefaultColumns, 10, 8, 20)

  /** The query parameters the dashboard reads. A column parameter is `None` when
      absent; a number parameter is the value of `Number(...)`, `None` for `NaN`
      (an absent parameter reads as `Number(null)`, which is `Some(0)`). */
  datatype Query = Query(colGender: Option<string>, colNationality: Option<string>,
                         colVisa: Option<string>, colSchool: Option<string>,
                         topN: Option<int>, stackedTopN: Option<int>)

  /** A query with no parameters. */
  const NoQuery := Query(None, None, None, None, Some(0), Some(0))

  /** `param || fallback` for a string parameter: absent or empty falls back. */
  function ColumnOr(param: Option<string>, fallback: string): (r: string)
    ensures r == fallback || (param.Some? && r == param.value)
    ensures r == fallback <== param.None? || param.value == ""
    ensures param.Some? && param.value != "" ==> r == param.value
  {
    if param.Some? && param.value != "" then param.value else fallback
  }

  /** `Number(param) || fallback`: only `0` and `NaN` fall back; a negative number is kept. */
  function NumberOr(param: Option<int>, fallback: int): (r: int)
    ensures r == fallback || (param.Some? && r == param.value)
    ensures param == None || param == Some(0) ==> r == fallback
    ensures param.Some? && param.value != 0 ==> r == param.value
  {
    match param
    case Some(n) => if n != 0 then n else fallback
    case None => fallback
  }

  /** The configuration in effect for a query: each column from its own
      parameter, each top-N from its own number parameter, the page size from
      the defaults. */
  function ResolveConfig(q: Query, defaults: Config): (cfg: Config)
    ensures cfg.columns.gender == ColumnOr(q.colGender, defaults.columns.gender)
    ensures cfg.columns.nationality == ColumnOr(q.colNationality, defaults.columns.nationality)
    ensures cfg.columns.visa == ColumnOr(q.colVisa, defaults.columns.visa)
    ensures cfg.columns.school == ColumnOr(q.colSchool, defaults.columns.school)
    ensures cfg.nationalityTopN == NumberOr(q.topN, defaults.nationalityTopN)
    ensures cfg.stackedTopN == NumberOr(q.stackedTopN, defaults.stackedTopN)
    ensures cfg.pageSize == defaults.pageSize
    ensures forall role :: defaults.columns.Get(role) != "" ==> cfg.columns.Get(role) != ""
    ensures defaults.nationalityTopN != 0 ==> cfg.nationalityTopN != 0
    ensures defaults.stackedTopN != 0 ==> cfg.stackedTopN != 0
  {
    Config(
      ColumnMap(ColumnOr(q.colGender, defaults.columns.gender),
                ColumnOr(q.colNationality, defaults.columns.nationality),
                ColumnOr(q.colVisa, defaults.columns.visa),
                ColumnOr(q.colSchool, defaults.columns.school)),
      NumberOr(q.topN, defaults.nationalityTopN),
      NumberOr(q.stackedTopN, defaults.stackedTopN),
      defaults.pageSize)
  }

  /** Without parameters the defaults are used unchanged. */
  lemma NoQueryKeepsDefaults(defaults: Config)
    ensures ResolveConfig(NoQuery, defaults) == defaults
  {
  }

  /** Resolving a query against the configuration it already produced changes
      nothing: a parameter that overrode a default overrides it again with the
      same value, and one that fell back keeps falling back. */
  lemma ResolveConfigIdempotent(q: Query, defaults: Config)
    ensures ResolveConfig(q, ResolveConfig(q, defaults)) == ResolveConfig(q, defaults)
  {
  }

  /** When every parameter is given, non-empty and non-zero, the defaults play
      no part except for the page size. */
  lemma FullQueryOverridesDefaults(q: Query, d1: Config, d2: Config)
    requires q.colGender.Some? && q.colGender.value != ""
    requires q.colNationality.Some? && q.colNationality.value != ""
    requires q.colVisa.Some? && q.colVisa.value != ""
    requires q.colSchool.Some? && q.colSchool.value != ""
    requires q.topN.Some? && q.topN.value != 0
    requires q.stackedTopN.Some? && q.stackedTopN.value != 0
    requires d1.pageSize == d2.pageSize
    ensures ResolveConfig(q, d1) == ResolveConfig(q, d2)
    ensures ResolveConfig(q, d1).columns ==
      ColumnMap(q.colGender.value, q.colNationality.value, q.colVisa.value, q.colSchool.value)
  {
  }

  /** `?topN=-3` is not rejected: the nationality chart then shows all but the last three entries. */
  lemma NegativeTopNDropsFromTheEnd(q: Query, counts: seq<Entry>)
    requires q.topN == Some(-3) && |counts| >= 3
    ensures ResolveConfig(q, DefaultConfig).nationalityTopN == -3
    ensures TopEntries(counts, ResolveConfig(q, DefaultConfig).nationalityTopN) == counts[..|counts| - 3]
  {
  }

  // ---------- Session state ----------

  /** `rawRows`, `mappedColumns`, `filteredRows` and `tablePage`. */
  datatype Session = Session(raw: seq<Row>, columns: ColumnMap, filtered: seq<Row>, page: nat)

  /** What `init` does with a freshly parsed dataset: `firstKeys` stands for
      `Object.keys(rows[0])` (the first record's headers, each once, in the
      parser's order), used as the header only when there is a first row; every
      row is shown. The filter controls are not consulted. */
  function Load(cfg: Config, rows: seq<Row>, firstKeys: seq<string>): (s: Session)
    requires rows != [] ==> NoDup(firstKeys) && forall k :: k in firstKeys <==> k in rows[0]
    ensures s.raw == rows && s.filtered == rows && s.page == 1
    ensures rows != [] ==> s.columns == DetectColumns(firstKeys, cfg.columns)
    ensures rows == [] ==> s.columns == cfg.columns
    ensures forall role :: s.columns.Get(role) == cfg.columns.Get(role) || (rows != [] && s.columns.Get(role) in rows[0])
    ensures forall role :: rows != [] && cfg.columns.Get(role) in rows[0] ==> s.columns.Get(role) == cfg.columns.Get(role)
  {
    var header := if |rows| > 0 then firstKeys else [];
    Session(rows, DetectColumns(header, cfg.columns), rows, 1)
  }

  /** `applyFilters`: the filtered rows are recomputed from all rows, and the table returns to page 1. */
  function Refilter(s: Session, c: Criteria): (t: Session)
    ensures t.raw == s.raw && t.columns == s.columns && t.page == 1
    ensures IsSubseq(t.filtered, s.raw)
    ensures forall i :: 0 <= i < |t.filtered| ==> Keep(s.columns, c, t.filtered[i])
    ensures forall i :: 0 <= i < |s.raw| && Keep(s.columns, c, s.raw[i]) ==> s.raw[i] in t.filtered
    ensures forall x :: multiset(t.filtered)[x] == if Keep(s.columns, c, x) then multiset(s.raw)[x] else 0
  {
    FilterMultiplicityAll(s.raw, (row: Row) => Keep(s.columns, c, row));
    s.(filtered := ApplyFilters(s.raw, s.columns, c), page := 1)
  }

  /** Filters do not accumulate: the latest criteria alone decide, and clearing
      every control shows every row again. */
  lemma RefilterForgetsEarlierCriteria(s: Session, c1: Criteria, c2: Criteria)
    ensures Refilter(Refilter(s, c1), c2) == Refilter(s, c2)
  {
  }

  /** Right after loading, applying filters with every control cleared is the
      same state: `init`'s "show every row on page 1" is what an empty filter gives. */
  lemma LoadIsUnfiltered(cfg: Config, rows: seq<Row>, firstKeys: seq<string>)
    requires rows != [] ==> NoDup(firstKeys) && forall k :: k in firstKeys <==> k in rows[0]
    ensures Refilter(Load(cfg, rows, firstKeys), Everything) == Load(cfg, rows, firstKeys)
  {
    var s := Load(cfg, rows, firstKeys);
    EmptyCriteriaKeepAll(s.raw, s.columns, "");
  }

  lemma ClearingFiltersShowsAll(s: Session, c: Criteria)
    ensures Refilter(Refilter(s, c), Everything).filtered == s.raw
  {
    EmptyCriteriaKeepAll(s.raw, s.columns, "");
  }

  // ---------- What is drawn ----------

  /** The three charts' data. */
  datatype Charts = Charts(nationality: seq<Entry>, nationalityColors: seq<string>,
                           gender: seq<Entry>, genderColors: seq<string>, stacked: Stacked)

  /** The nationality bar chart's entries: the first `n` of the frequency table, in its order. */
  function NationalityBars(rows: seq<Row>, column: string, n: int): (bars: seq<Entry>)
    ensures |bars| <= |GroupCount(rows, column)|
    ensures bars == GroupCount(rows, column)[..|bars|]
    ensures n >= 0 ==> |bars| <= n
    ensures n >= 0 ==> |bars| == if n < |GroupCount(rows, column)| then n else |GroupCount(rows, column)|
    ensures n < 0 ==> |bars| == if |GroupCount(rows, column)| + n < 0 then 0 else |GroupCount(rows, column)| + n
  {
    TopEntries(GroupCount(rows, column), n)
  }

  /** The stacked chart's nationality whitelist: the first `n` keys of the frequency table. */
  function StackWhitelist(rows: seq<Row>, column: string, n: int): (w: seq<string>)
    ensures |w| <= |GroupCount(rows, column)|
    ensures w == Keys(GroupCount(rows, column))[..|w|]
    ensures NoDup(w)
    ensures n >= 0 ==> |w| == if n < |GroupCount(rows, column)| then n else |GroupCount(rows, column)|
    ensures n < 0 ==> |w| == if |GroupCount(rows, column)| + n < 0 then 0 else |GroupCount(rows, column)| + n
  {
    TopKeysOfOrderedTable(GroupCount(rows, column), n);
    TopKeys(GroupCount(rows, column), n)
  }

  /** `renderCharts` over the filtered rows: the nationality bars are the top
      entries of their frequency table, the pie is the whole gender table, the
      stacked chart uses the top keys as its whitelist, and every chart's
      colours follow the palette. */
  function RenderCharts(s: Session, cfg: Config): (ch: Charts)
    ensures ch.nationality == NationalityBars(s.filtered, s.columns.nationality, cfg.nationalityTopN)
    ensures ch.gender == GroupCount(s.filtered, s.columns.gender)
    ensures ch.stacked == Stack(s.filtered, s.columns.nationality, s.columns.visa,
                                StackWhitelist(s.filtered, s.columns.nationality, cfg.stackedTopN))
    ensures cfg.nationalityTopN >= 0 ==> |ch.nationality| <= cfg.nationalityTopN
    ensures |ch.nationalityColors| == |ch.nationality|
    ensures forall i :: 0 <= i < |ch.nationality| ==> ch.nationalityColors[i] == Base[i % |Base|]
    ensures |ch.genderColors| == |ch.gender|
    ensures forall i :: 0 <= i < |ch.gender| ==> ch.genderColors[i] == Base[i % |Base|]
    ensures NoDup(ch.stacked.labels)
    ensures ch.stacked.labels == Keys(GroupCount(s.filtered, s.columns.nationality))[..|ch.stacked.labels|]
  {
    var bars := NationalityBars(s.filtered, s.columns.nationality, cfg.nationalityTopN);
    var genderCounts := GroupCount(s.filtered, s.columns.gender);
    var whitelist := StackWhitelist(s.filtered, s.columns.nationality, cfg.stackedTopN);
    Charts(bars, Palette(|bars|), genderCounts, Palette(|genderCounts|),
           Stack(s.filtered, s.columns.nationality, s.columns.visa, whitelist))
  }

  /** `populateFilterOptions`: the gender and visa choices, taken from all rows:
      exactly the non-empty normalised values, each once, sorted. */
  function FilterChoices(s: Session): (choices: (seq<string>, seq<string>))
    ensures NoDup(choices.0) && Sorted(choices.0) && NoDup(choices.1) && Sorted(choices.1)
    ensures forall x :: x in choices.0 <==> x != "" && x in Values(s.raw, s.columns.gender)
    ensures forall x :: x in choices.1 <==> x != "" && x in Values(s.raw, s.columns.visa)
    ensures forall k :: 0 <= k < |s.raw| && Value(s.raw[k], s.columns.gender) != "" ==>
      Value(s.raw[k], s.columns.gender) in choices.0
    ensures forall k :: 0 <= k < |s.raw| && Value(s.raw[k], s.columns.visa) != "" ==>
      Value(s.raw[k], s.columns.visa) in choices.1
  {
    (Options(s.raw, s.columns.gender), Options(s.raw, s.columns.visa))
  }

  /** The charts count the filtered rows: the pie's slices add up to them, and
      with equal top-N sizes the stacked chart's columns are the bar chart's bars. */
  lemma RenderChartsCountsFiltered(s: Session, cfg: Config)
    ensures Total(RenderCharts(s, cfg).gender) == |s.filtered|
    ensures cfg.nationalityTopN == cfg.stackedTopN ==>
      RenderCharts(s, cfg).stacked.labels == Keys(RenderCharts(s, cfg).nationality)
  {
    var ch := RenderCharts(s, cfg);
    if cfg.nationalityTopN == cfg.stackedTopN {
      var counts := GroupCount(s.filtered, s.columns.nationality);
      assert ch.stacked.labels == TopKeys(counts, cfg.stackedTopN);
      assert ch.nationality == TopEntries(counts, cfg.stackedTopN);
    }
  }

  /** Every gender option selects at least one row: choosing it never empties the table. */
  lemma GenderChoiceSelectsSomething(s: Session, g: string)
    requires g in FilterChoices(s).0
    ensures Refilter(s, Criteria(g, "", "")).filtered != []
  {
    var opts := Options(s.raw, s.columns.gender);
    var vs := Values(s.raw, s.columns.gender);
    assert g in vs by {
      var i :| 0 <= i < |opts| && opts[i] == g;
    }
    var k :| 0 <= k < |vs| && vs[k] == g;
    GenderOnly(s.columns, g, s.raw[k]);
    assert s.raw[k] in Refilter(s, Criteria(g, "", "")).filtered;
  }

  /** An empty dataset draws empty charts, an empty table and no filter choices. */
  lemma EmptyDataset(cfg: Config, firstKeys: seq<string>)
    ensures var s := Load(cfg, [], firstKeys);
      var ch := RenderCharts(s, cfg);
      && ch.nationality == [] && ch.gender == [] && ch.stacked.labels == [] && ch.stacked.series == []
      && RenderTable(s.filtered, s.columns, s.page, cfg.pageSize) == [] && FilterChoices(s) == ([], [])
  {
    var s := Load(cfg, [], firstKeys);
    EmptyGroupCount(s.filtered, s.columns.nationality);
    EmptyGroupCount(s.filtered, s.columns.gender);
    var ch := RenderCharts(s, cfg);
    assert Values(RowsTop([], s.columns.nationality, ch.stacked.labels), s.columns.visa) == [];
  }

  /** With no rows the frequency table is empty. */
  lemma EmptyGroupCount(rows: seq<Row>, column: string)
    requires rows == []
    ensures GroupCount(rows, column) == []
  {
    var r := GroupCount(rows, column);
    if r != [] {
      GroupCountEntries(rows, column);
      TotalAtLeastHead(r);
    }
  }

  lemma TotalAtLeastHead(r: seq<Entry>)
    requires r != []
    ensures Total(r) >= r[0].count
  {
  }
}

=== FILE: filter_engine.dfy ===
/** `applyFilters`: the gender and visa drop-downs select by exact normalised
    value, the school box by case-insensitive substring, and an empty control
    selects everything. */
module FilterEngine {
  import opened Text
  import opened Seqs
  import opened Normalizer
  import opened ColumnResolver

  /** The raw values of the three filter controls. */
  datatype Criteria = Criteria(gender: string, visa: string, school: string)

  /** All controls at their "everything" setting. */
  const Everything := Criteria("", "", "")

  /** The school search term as it is compared: trimmed, then lower-cased. */
  function Needle(c: Criteria): string {
    Lower(Trim(c.school))
  }

  /** The per-row test of `applyFilters`, written as its chain of early rejections. */
  function Keep(cols: ColumnMap, c: Criteria, row: Row): (b: bool)
    ensures b <==>
      && (c.gender == "" || Value(row, cols.gender) == c.gender)
      && (c.visa == "" || Value(row, cols.visa) == c.visa)
      && (Trim(c.school) == "" || Contains(Lower(Value(row, cols.school)), Needle(c)))
  {
    if c.gender != "" && Value(row, cols.gender) != c.gender then false
    else if c.visa != "" && Value(row, cols.visa) != c.visa then false
    else if Needle(c) != "" && !Contains(Lower(Value(row, cols.school)), Needle(c)) then false
    else true
  }

  /** With only the gender drop-down set, a row is kept exactly when its gender matches. */
  lemma GenderOnly(cols: ColumnMap, g: string, row: Row)
    ensures Keep(cols, Criteria(g, "", ""), row) <==> g == "" || Value(row, cols.gender) == g
  {
    assert Trim("") == "";
  }

  /** `filteredRows`: the raw rows that pass every active control, in their original order. */
  function ApplyFilters(rows: seq<Row>, cols: ColumnMap, c: Criteria): (r: seq<Row>)
    ensures IsSubseq(r, rows)
    ensures forall i :: 0 <= i < |r| ==> Keep(cols, c, r[i])
    ensures forall i :: 0 <= i < |rows| && Keep(cols, c, rows[i]) ==> rows[i] in r
  {
    FilterIsSubseq(rows, (row: Row) => Keep(cols, c, row));
    Filter(rows, (row: Row) => Keep(cols, c, row))
  }

  /** Each row is kept as many times as it occurs, or not at all. */
  lemma ApplyFiltersMultiplicity(rows: seq<Row>, cols: ColumnMap, c: Criteria, row: Row)
    ensures multiset(ApplyFilters(rows, cols, c))[row] == if Keep(cols, c, row) then multiset(rows)[row] else 0
  {
    FilterMultiplicity(rows, (row: Row) => Keep(cols, c, row), row);
  }

  /** Of three rows, keeping the outer two and dropping the middle one leaves the outer two in order. */
  lemma ApplyFiltersKeepsOuter(rows: seq<Row>, cols: ColumnMap, c: Criteria)
    requires |rows| == 3
    requires Keep(cols, c, rows[0]) && !Keep(cols, c, rows[1]) && Keep(cols, c, rows[2])
    ensures ApplyFilters(rows, cols, c) == [rows[0], rows[2]]
  {
    FilterOfThree(rows, (row: Row) => Keep(cols, c, row));
    assert [rows[0]] + [] + [rows[2]] == [rows[0], rows[2]];
  }

  /** With both drop-downs on "everything" and a blank search box, every row is shown. */
  lemma EmptyCriteriaKeepAll(rows: seq<Row>, cols: ColumnMap, school: string)
    requires Trim(school) == ""
    ensures ApplyFilters(rows, cols, Criteria("", "", school)) == rows
  {
    FilterKeepsAll(rows, (row: Row) => Keep(cols, Criteria("", "", school), row));
  }

  /** Filtering the filtered rows again with the same controls changes nothing. */
  lemma ApplyFiltersIdempotent(rows: seq<Row>, cols: ColumnMap, c: Criteria)
    ensures ApplyFilters(ApplyFilters(rows, cols, c), cols, c) == ApplyFilters(rows, cols, c)
  {
    FilterIdempotent(rows, (row: Row) => Keep(cols, c, row));
  }

  /** Choosing a gender on top of a visa and a search term is the same as
      filtering by the visa and search term first and by the gender afterwards. */
  lemma GenderNarrowsFurther(rows: seq<Row>, cols: ColumnMap, g: string, v: string, s: string)
    ensures ApplyFilters(ApplyFilters(rows, cols, Criteria("", v, s)), cols, Criteria(g, "", ""))
         == ApplyFilters(rows, cols, Criteria(g, v, s))
  {
    FilterCompose(rows, (row: Row) => Keep(cols, Criteria("", v, s), row),
                  (row: Row) => Keep(cols, Criteria(g, "", ""), row),
                  (row: Row) => Keep(cols, Criteria(g, v, s), row));
  }

  /** The search box ignores surrounding blanks and ASCII letter case. */
  lemma SearchIgnoresCaseAndBlanks(rows: seq<Row>, cols: ColumnMap, g: string, v: string, s1: string, s2: string)
    requires Lower(Trim(s1)) == Lower(Trim(s2))
    ensures ApplyFilters(rows, cols, Criteria(g, v, s1)) == ApplyFilters(rows, cols, Criteria(g, v, s2))
  {
    FilterCompose(rows, (row: Row) => Keep(cols, Criteria(g, v, s1), row),
                  (row: Row) => true,
                  (row: Row) => Keep(cols, Criteria(g, v, s2), row));
    FilterKeepsAll(Filter(rows, (row: Row) => Keep(cols, Criteria(g, v, s1), row)), (row: Row) => true);
  }
}

=== FILE: filter_options.dfy ===
/** `populateFilterOptions`: the choices of a drop-down are the distinct
    non-empty normalised values of its column, in ascending string order. */
module FilterOptions {
  import opened Text
  import opened Seqs
  import opened Normalizer

  /** Ascending in the lexicographic order. */
  predicate Sorted(s: seq<string>) {
    forall i, j :: 0 <= i < j < |s| ==> LexLe(s[i], s[j])
  }

  /** An element below every element of an ascending sequence can lead it. */
  lemma SortedCons(x: string, s: seq<string>)
    requires Sorted(s)
    requires forall j :: 0 <= j < |s| ==> LexLe(x, s[j])
    ensures Sorted([x] + s)
  {
    forall i, j | 0 <= i < j < |s| + 1
      ensures LexLe(([x] + s)[i], ([x] + s)[j])
    {
      if i > 0 {
        assert ([x] + s)[i] == s[i - 1];
      }
      assert ([x] + s)[j] == s[j - 1];
    }
  }

  /** Inserts `x` into an ascending sequence before the first element it does not follow. */
  function InsertLex(x: string, s: seq<string>): (r: seq<string>)
    requires Sorted(s)
    ensures |r| == |s| + 1
    ensures multiset(r) == multiset(s) + multiset{x}
    ensures Sorted(r)
  {
    if s == [] || LexLe(x, s[0]) then
      assert forall j :: 0 <= j < |s| ==> LexLe(x, s[j]) by {
        forall j | 0 < j < |s| {
          LexLeTransitive(x, s[0], s[j]);
        }
      }
      SortedCons(x, s);
      [x] + s
    else
      var rest := InsertLex(x, s[1..]);
      assert s == [s[0]] + s[1..];
      assert forall j :: 0 <= j < |rest| ==> LexLe(s[0], rest[j]) by {
        LexLeTotal(x, s[0]);
        forall j | 0 <= j < |rest|
          ensures LexLe(s[0], rest[j])
        {
          assert rest[j] in multiset(s[1..]) + multiset{x};
          if rest[j] != x {
            assert rest[j] in s[1..];
          }
        }
      }
      SortedCons(s[0], rest);
      [s[0]] + rest
  }

  /** An insertion sort into ascending order: the same elements, ascending. */
  function SortLex(s: seq<string>): (r: seq<string>)
    ensures |r| == |s|
    ensures multiset(r) == multiset(s)
    ensures Sorted(r)
  {
    if s == [] then []
    else
      assert s == [s[0]] + s[1..];
      InsertLex(s[0], SortLex(s[1..]))
  }

  /** The distinct non-empty values, in order of first occurrence. */
  function DistinctNonEmpty(vs: seq<string>): (d: seq<string>)
    ensures NoDup(d)
    ensures forall x :: x in d <==> x != "" && x in vs
  {
    var f := Filter(vs, (v: string) => v != "");
    assert forall x :: x in f <==> x != "" && x in vs by {
      forall x
        ensures x in f <==> x != "" && x in vs
      {
        FilterMultiplicity(vs, (v: string) => v != "", x);
        assert x in f <==> x in multiset(f);
        assert x in vs <==> x in multiset(vs);
      }
    }
    Distinct(f)
  }

  /** `Array.from(new Set(values.filter(Boolean))).sort()`: the distinct non-empty values, ascending. */
  function DistinctNonEmptySorted(vs: seq<string>): (opts: seq<string>)
    ensures NoDup(opts)
    ensures Sorted(opts)
    ensures forall x :: x in opts <==> x != "" && x in vs
  {
    var d := DistinctNonEmpty(vs);
    var opts := SortLex(d);
    PermutationKeepsSet(d, opts);
    opts
  }

  /** The options listed for `column`. */
  function Options(rows: seq<Row>, column: string): (opts: seq<string>)
    ensures NoDup(opts)
    ensures Sorted(opts)
    ensures forall x :: x in opts <==> x != "" && x in Values(rows, column)
    ensures forall k :: 0 <= k < |rows| && Value(rows[k], column) != "" ==> Value(rows[k], column) in opts
  {
    var vs := Values(rows, column);
    assert forall k :: 0 <= k < |rows| ==> vs[k] in vs;
    DistinctNonEmptySorted(vs)
  }

  /** A rearrangement of a duplicate-free sequence has the same elements and no duplicates. */
  lemma PermutationKeepsSet(d: seq<string>, p: seq<string>)
    requires NoDup(d) && multiset(p) == multiset(d)
    ensures NoDup(p)
    ensures forall x :: x in p <==> x in d
  {
    forall x
      ensures x in p <==> x in d
    {
      assert x in p <==> x in multiset(p);
      assert x in d <==> x in multiset(d);
    }
    forall i, j | 0 <= i < j < |p|
      ensures p[i] != p[j]
    {
      MultisetOfNoDup(d, p[i]);
      assert p == p[..j] + [p[j]] + p[j + 1..];
      assert p[i] in multiset(p[..j]);
      assert multiset(p)[p[i]] >= 1 + if p[j] == p[i] then 1 else 0;
    }
  }

  /** A value occurs at most once in a sequence without duplicates. */
  lemma {:induction false} MultisetOfNoDup(s: seq<string>, x: string)
    requires NoDup(s)
    ensures multiset(s)[x] <= 1
  {
    if s != [] {
      NoDupTail(s);
      MultisetOfNoDup(s[1..], x);
      assert s == [s[0]] + s[1..];
    }
  }

  /** Two ascending duplicate-free sequences with the same elements are equal:
      the option list is determined by the set of values alone. */
  lemma {:induction false} SortedSetUnique(a: seq<string>, b: seq<string>)
    requires NoDup(a) && Sorted(a) && NoDup(b) && Sorted(b)
    requires forall x :: x in a <==> x in b
    ensures a == b
  {
    if a != [] {
      assert a[0] in b;
    }
    if b != [] {
      assert b[0] in a;
    }
    if a != [] && b != [] {
      var i :| 0 <= i < |b| && b[i] == a[0];
      var j :| 0 <= j < |a| && a[j] == b[0];
      assert a[0] == b[0] by {
        if a[0] != b[0] {
          assert i > 0 && j > 0;
          LexLeAntisymmetric(a[0], b[0]);
        }
      }
      NoDupTail(a);
      NoDupTail(b);
      forall x
        ensures x in a[1..] <==> x in b[1..]
      {
        if x in a[1..] {
          assert x != a[0] && x in a;
        }
        if x in b[1..] {
          assert x != b[0] && x in b;
        }
      }
      SortedSetUnique(a[1..], b[1..]);
      assert a == [a[0]] + a[1..] && b == [b[0]] + b[1..];
    }
  }

  /** Any other ascending duplicate-free listing of the non-empty values of
      `column` is the option list. */
  lemma OptionsAreTheSortedValues(rows: seq<Row>, column: string, other: seq<string>)
    requires NoDup(other) && Sorted(other)
    requires forall x :: x in other <==> x != "" && x in Values(rows, column)
    ensures other == Options(rows, column)
  {
    SortedSetUnique(Options(rows, column), other);
  }
}

=== FILE: frequency_spec.dfy ===
/** An order-based description of the table `groupCount` returns, independent
    of how it is computed, and the proof that it pins the table down. */
module FrequencySpec {
  import opened Seqs
  import opened FrequencyTable

  /** `x` is listed before `y`: a larger count first, equal counts in the order
      their keys first occur in `ks`. */
  predicate Precedes(x: Entry, y: Entry, ks: seq<string>) {
    x.count > y.count || (x.count == y.count && FirstIndex(ks, x.key) < FirstIndex(ks, y.key))
  }

  /** Every entry precedes every later entry. */
  predicate Chain(r: seq<Entry>, ks: seq<string>) {
    forall i, j :: 0 <= i < j < |r| ==> Precedes(r[i], r[j], ks)
  }

  /** `r` lists each distinct key of `ks` once, with its number of occurrences,
      in `Precedes` order. */
  predicate IsFrequencyTable(r: seq<Entry>, ks: seq<string>) {
    && (forall i :: 0 <= i < |r| ==> r[i].key in ks && r[i].count == multiset(ks)[r[i].key])
    && (forall i :: 0 <= i < |ks| ==> ks[i] in Keys(r))
    && Chain(r, ks)
  }

  /** Every listed key occurs, and a value absent from `ks` is never a key. */
  lemma FrequencyTableEntries(r: seq<Entry>, ks: seq<string>, absent: string)
    requires IsFrequencyTable(r, ks) && absent !in ks
    ensures forall i :: 0 <= i < |r| ==> r[i].count >= 1 && r[i].key != absent
  {
    forall i | 0 <= i < |r|
      ensures r[i].count >= 1
    {
      assert r[i].key in multiset(ks);
    }
  }

  /** The computed table meets the description. */
  lemma GroupKeysIsFrequencyTable(ks: seq<string>)
    ensures IsFrequencyTable(GroupKeys(ks), ks)
  {
    var r := GroupKeys(ks);
    forall i, j | 0 <= i < j < |r|
      ensures Precedes(r[i], r[j], ks)
    {
      assert r[i].count >= r[j].count;
    }
  }

  /** The head of a chain precedes every other entry of it. */
  lemma ChainHeadFirst(a: seq<Entry>, ks: seq<string>, x: Entry)
    requires Chain(a, ks) && x in a
    ensures x == a[0] || Precedes(a[0], x, ks)
  {
    var k :| 0 <= k < |a| && a[k] == x;
  }

  /** Two chains over the same entries are equal. */
  lemma {:induction false} ChainUnique(a: seq<Entry>, b: seq<Entry>, ks: seq<string>)
    requires Chain(a, ks) && Chain(b, ks)
    requires forall x :: x in a <==> x in b
    ensures a == b
  {
    if a != [] {
      assert a[0] in b;
    }
    if b != [] {
      assert b[0] in a;
    }
    if a != [] && b != [] {
      ChainHeadFirst(a, ks, b[0]);
      ChainHeadFirst(b, ks, a[0]);
      assert a[0] == b[0];
      forall x
        ensures x in a[1..] <==> x in b[1..]
      {
        if x in a[1..] {
          var k :| 1 <= k < |a| && a[k] == x;
          assert Precedes(a[0], a[k], ks);
          assert x in b;
        }
        if x in b[1..] {
          var k :| 1 <= k < |b| && b[k] == x;
          assert Precedes(b[0], b[k], ks);
          assert x in a;
        }
      }
      ChainUnique(a[1..], b[1..], ks);
      assert a == [a[0]] + a[1..] && b == [b[0]] + b[1..];
    }
  }

  /** One half of `FrequencyTableUnique`: every entry of one table is in the other. */
  lemma EntriesShared(a: seq<Entry>, b: seq<Entry>, ks: seq<string>, x: Entry)
    requires IsFrequencyTable(a, ks) && IsFrequencyTable(b, ks)
    requires x in a
    ensures x in b
  {
    var i :| 0 <= i < |a| && a[i] == x;
    var k :| 0 <= k < |ks| && ks[k] == x.key;
    assert ks[k] in Keys(b);
    var j :| 0 <= j < |b| && Keys(b)[j] == x.key;
    assert b[j] == x;
  }

  /** The description determines the table: `GroupKeys(ks)` is the only sequence meeting it. */
  lemma FrequencyTableUnique(r: seq<Entry>, ks: seq<string>)
    requires IsFrequencyTable(r, ks)
    ensures r == GroupKeys(ks)
  {
    var g := GroupKeys(ks);
    GroupKeysIsFrequencyTable(ks);
    forall x
      ensures x in r <==> x in g
    {
      if x in r {
        EntriesShared(r, g, ks, x);
      }
      if x in g {
        EntriesShared(g, r, ks, x);
      }
    }
    ChainUnique(r, g, ks);
  }
}

=== FILE: frequency_table.dfy ===
/** Insertion-ordered frequency tables and their stable ordering by descending
    count: the counting loop and the sort of `groupCount`. */
module FrequencyTable {
  import opened Seqs

  /** One `{ key, value }` pair of a frequency table. */
  datatype Entry = Entry(key: string, count: nat)

  /** The keys of a frequency table, in its order. */
  function Keys(es: seq<Entry>): (ks: seq<string>)
    ensures |ks| == |es|
    ensures forall i :: 0 <= i < |es| ==> ks[i] == es[i].key
  {
    if es == [] then [] else [es[0].key] + Keys(es[1..])
  }

  /** No key has two entries. */
  predicate KeysDistinct(es: seq<Entry>) {
    forall i, j :: 0 <= i < j < |es| ==> es[i].key != es[j].key
  }

  /** The sum of the counts of a frequency table. */
  function Total(es: seq<Entry>): nat {
    if es == [] then 0 else es[0].count + Total(es[1..])
  }

  // ---------- Insertion-ordered counting (the `Map` loop) ----------

  /** `map.set(key, (map.get(key) || 0) + 1)` on an insertion-ordered map held as
      a sequence of entries: an existing key keeps its place and gains one, a new
      key goes last with count 1, and no other entry changes. */
  function Bump(es: seq<Entry>, k: string): (r: seq<Entry>)
    requires KeysDistinct(es)
    ensures k in Keys(es) ==> Keys(r) == Keys(es)
    ensures k !in Keys(es) ==> Keys(r) == Keys(es) + [k]
    ensures forall i :: 0 <= i < |r| ==>
      r[i].count == (if i < |es| then es[i].count else 0) + (if r[i].key == k then 1 else 0)
  {
    if es == [] then [Entry(k, 1)]
    else if es[0].key == k then [es[0].(count := es[0].count + 1)] + es[1..]
    else
      var rest := Bump(es[1..], k);
      assert Keys(es) == [es[0].key] + Keys(es[1..]);
      assert Keys([es[0]] + rest) == [es[0].key] + Keys(rest);
      [es[0]] + rest
  }

  /** Counting one more item raises the table's total by exactly one. */
  lemma {:induction false} BumpTotal(es: seq<Entry>, k: string)
    requires KeysDistinct(es)
    ensures Total(Bump(es, k)) == Total(es) + 1
  {
    if es != [] && es[0].key != k {
      BumpTotal(es[1..], k);
      assert Bump(es, k)[1..] == Bump(es[1..], k);
    }
  }

  /** The counting loop of `groupCount`: one entry per distinct key, keys in
      first-occurrence order. */
  function Tally(ks: seq<string>): (r: seq<Entry>)
    ensures Keys(r) == Distinct(ks)
    ensures KeysDistinct(r)
  {
    if |ks| == 0 then []
    else Bump(Tally(ks[..|ks| - 1]), ks[|ks| - 1])
  }

  /** Each entry of the tally counts the occurrences of its key. */
  lemma {:induction false} TallyCounts(ks: seq<string>)
    ensures forall i :: 0 <= i < |Tally(ks)| ==> Tally(ks)[i].count == multiset(ks)[Tally(ks)[i].key]
  {
    if |ks| > 0 {
      var p := ks[..|ks| - 1];
      var k := ks[|ks| - 1];
      assert ks == p + [k];
      assert multiset(ks) == multiset(p) + multiset{k};
      TallyCounts(p);
      var t := Tally(p);
      assert k !in Keys(t) ==> k !in p;
      BumpCounts(t, k, multiset(p));
    }
  }

  /** Bumping `k` in a table that counts the multiset `m` gives a table that counts `m` plus one `k`. */
  lemma BumpCounts(t: seq<Entry>, k: string, m: multiset<string>)
    requires KeysDistinct(t)
    requires forall i :: 0 <= i < |t| ==> t[i].count == m[t[i].key]
    requires k !in Keys(t) ==> m[k] == 0
    ensures forall i :: 0 <= i < |Bump(t, k)| ==> Bump(t, k)[i].count == (m + multiset{k})[Bump(t, k)[i].key]
  {
    var r := Bump(t, k);
    forall i | 0 <= i < |r|
      ensures r[i].count == (m + multiset{k})[r[i].key]
    {
      assert Keys(r)[i] == r[i].key;
      if i < |t| {
        assert Keys(t)[i] == t[i].key;
      }
    }
  }

  lemma {:induction false} TallyTotal(ks: seq<string>)
    ensures Total(Tally(ks)) == |ks|
  {
    if |ks| > 0 {
      TallyTotal(ks[..|ks| - 1]);
      BumpTotal(Tally(ks[..|ks| - 1]), ks[|ks| - 1]);
    }
  }

  // ---------- The stable sort by descending count ----------

  /** Counts never increase from left to right. */
  predicate ByCountDesc(es: seq<Entry>) {
    forall i, j :: 0 <= i < j < |es| ==> es[i].count >= es[j].count
  }

  /** Inserts `e` before the first entry whose count is not larger than its own. */
  function InsertByCount(e: Entry, s: seq<Entry>): (r: seq<Entry>)
    ensures |r| == |s| + 1
    ensures multiset(r) == multiset(s) + multiset{e}
    ensures Total(r) == e.count + Total(s)
  {
    if s == [] || e.count >= s[0].count then [e] + s
    else
      assert s == [s[0]] + s[1..];
      [s[0]] + InsertByCount(e, s[1..])
  }

  /** An entry of the insertion result is the inserted entry or an entry of `s`. */
  lemma InsertMember(e: Entry, s: seq<Entry>, x: Entry)
    requires x in InsertByCount(e, s)
    ensures x == e || x in s
  {
    assert x in multiset(InsertByCount(e, s));
  }

  /** An entry whose count is at least every count of an ordered table can lead it. */
  lemma ConsByCount(x: Entry, rest: seq<Entry>)
    requires ByCountDesc(rest)
    requires forall j :: 0 <= j < |rest| ==> x.count >= rest[j].count
    ensures ByCountDesc([x] + rest)
  {
    forall i, j | 0 <= i < j < |rest| + 1
      ensures ([x] + rest)[i].count >= ([x] + rest)[j].count
    {
      assert ([x] + rest)[j] == rest[j - 1];
      if i > 0 {
        assert ([x] + rest)[i] == rest[i - 1];
      }
    }
  }

  /** Inserting into a table ordered by descending count keeps it ordered. */
  lemma {:induction false} InsertKeepsOrder(e: Entry, s: seq<Entry>)
    requires ByCountDesc(s)
    ensures ByCountDesc(InsertByCount(e, s))
  {
    if s == [] || e.count >= s[0].count {
      ConsByCount(e, s);
    } else {
      var rest := InsertByCount(e, s[1..]);
      InsertKeepsOrder(e, s[1..]);
      forall j | 0 <= j < |rest|
        ensures s[0].count >= rest[j].count
      {
        InsertMember(e, s[1..], rest[j]);
      }
      ConsByCount(s[0], rest);
    }
  }

  /** `Array.prototype.sort((a, b) => b.value - a.value)`, which is stable. */
  function SortByCount(es: seq<Entry>): (r: seq<Entry>)
    ensures |r| == |es|
    ensures multiset(r) == multiset(es)
    ensures Total(r) == Total(es)
    ensures ByCountDesc(r)
  {
    if es == [] then []
    else
      assert es == [es[0]] + es[1..];
      InsertKeepsOrder(es[0], SortByCount(es[1..]));
      InsertByCount(es[0], SortByCount(es[1..]))
  }

  /** Entries appear in the order their keys first occur in `ks`. */
  predicate InFirstOccurrenceOrder(es: seq<Entry>, ks: seq<string>) {
    forall i, j :: 0 <= i < j < |es| ==> FirstIndex(ks, es[i].key) < FirstIndex(ks, es[j].key)
  }

  /** Entries with equal counts appear in the order their keys first occur in `ks`. */
  predicate TiesInFirstOccurrenceOrder(es: seq<Entry>, ks: seq<string>) {
    forall i, j :: 0 <= i < j < |es| && es[i].count == es[j].count ==>
      FirstIndex(ks, es[i].key) < FirstIndex(ks, es[j].key)
  }

  /** An entry can lead a table whose ties are in first-occurrence order when it
      occurs first among the entries of equal count. */
  lemma ConsTieOrder(x: Entry, rest: seq<Entry>, ks: seq<string>)
    requires TiesInFirstOccurrenceOrder(rest, ks)
    requires forall j :: 0 <= j < |rest| && x.count == rest[j].count ==>
      FirstIndex(ks, x.key) < FirstIndex(ks, rest[j].key)
    ensures TiesInFirstOccurrenceOrder([x] + rest, ks)
  {
    forall i, j | 0 <= i < j < |rest| + 1 && ([x] + rest)[i].count == ([x] + rest)[j].count
      ensures FirstIndex(ks, ([x] + rest)[i].key) < FirstIndex(ks, ([x] + rest)[j].key)
    {
      assert ([x] + rest)[j] == rest[j - 1];
      if i > 0 {
        assert ([x] + rest)[i] == rest[i - 1];
      }
    }
  }

  lemma {:induction false} InsertKeepsTieOrder(e: Entry, s: seq<Entry>, ks: seq<string>)
    requires ByCountDesc(s) && TiesInFirstOccurrenceOrder(s, ks)
    requires forall j :: 0 <= j < |s| ==> FirstIndex(ks, e.key) < FirstIndex(ks, s[j].key)
    ensures TiesInFirstOccurrenceOrder(InsertByCount(e, s), ks)
  {
    if s == [] || e.count >= s[0].count {
      ConsTieOrder(e, s, ks);
    } else {
      var tail := s[1..];
      var rest := InsertByCount(e, tail);
      InsertKeepsTieOrder(e, tail, ks);
      forall j | 0 <= j < |rest| && s[0].count == rest[j].count
        ensures FirstIndex(ks, s[0].key) < FirstIndex(ks, rest[j].key)
      {
        InsertMember(e, tail, rest[j]);
        var idx := FirstIndex(tail, rest[j]);
        assert s[idx + 1] == rest[j];
      }
      ConsTieOrder(s[0], rest, ks);
    }
  }

  /** The sort is stable: if the input lists keys in first-occurrence order,
      equal counts keep that order in the output. */
  lemma {:induction false} SortKeepsTieOrder(es: seq<Entry>, ks: seq<string>)
    requires InFirstOccurrenceOrder(es, ks)
    ensures TiesInFirstOccurrenceOrder(SortByCount(es), ks)
  {
    if es != [] {
      var rest := SortByCount(es[1..]);
      SortKeepsTieOrder(es[1..], ks);
      forall j | 0 <= j < |rest|
        ensures FirstIndex(ks, es[0].key) < FirstIndex(ks, rest[j].key)
      {
        assert rest[j] in multiset(es[1..]);
        var idx :| 0 <= idx < |es[1..]| && es[1..][idx] == rest[j];
        assert es[idx + 1] == rest[j];
      }
      InsertKeepsTieOrder(es[0], rest, ks);
    }
  }

  /** An entry whose key no entry of the table has can lead it. */
  lemma ConsKeysDistinct(x: Entry, rest: seq<Entry>)
    requires KeysDistinct(rest)
    requires forall j :: 0 <= j < |rest| ==> rest[j].key != x.key
    ensures KeysDistinct([x] + rest)
  {
    forall i, j | 0 <= i < j < |rest| + 1
      ensures ([x] + rest)[i].key != ([x] + rest)[j].key
    {
      assert ([x] + rest)[j] == rest[j - 1];
      if i > 0 {
        assert ([x] + rest)[i] == rest[i - 1];
      }
    }
  }

  lemma {:induction false} InsertKeepsKeysDistinct(e: Entry, s: seq<Entry>)
    requires KeysDistinct(s)
    requires forall j :: 0 <= j < |s| ==> s[j].key != e.key
    ensures KeysDistinct(InsertByCount(e, s))
  {
    if s == [] || e.count >= s[0].count {
      ConsKeysDistinct(e, s);
    } else {
      var rest := InsertByCount(e, s[1..]);
      InsertKeepsKeysDistinct(e, s[1..]);
      forall j | 0 <= j < |rest|
        ensures rest[j].key != s[0].key
      {
        InsertMember(e, s[1..], rest[j]);
        if rest[j] != e {
          var idx := FirstIndex(s[1..], rest[j]);
          assert s[idx + 1] == rest[j];
        }
      }
      ConsKeysDistinct(s[0], rest);
    }
  }

  /** Sorting never merges or duplicates keys. */
  lemma {:induction false} SortKeepsKeysDistinct(es: seq<Entry>)
    requires KeysDistinct(es)
    ensures KeysDistinct(SortByCount(es))
  {
    if es != [] {
      SortKeepsKeysDistinct(es[1..]);
      var rest := SortByCount(es[1..]);
      forall j | 0 <= j < |rest|
        ensures rest[j].key != es[0].key
      {
        assert rest[j] in multiset(es[1..]);
        var idx :| 0 <= idx < |es[1..]| && es[1..][idx] == rest[j];
        assert es[idx + 1] == rest[j];
      }
      InsertKeepsKeysDistinct(es[0], rest);
    }
  }

  // ---------- groupCount on keys ----------

  /** A table whose keys are the distinct values of `ks` lists them in
      first-occurrence order. */
  lemma DistinctKeysInOrder(t: seq<Entry>, ks: seq<string>)
    requires Keys(t) == Distinct(ks)
    ensures InFirstOccurrenceOrder(t, ks)
  {
    forall i, j | 0 <= i < j < |t|
      ensures FirstIndex(ks, t[i].key) < FirstIndex(ks, t[j].key)
    {
      assert t[i].key == Distinct(ks)[i] && t[j].key == Distinct(ks)[j];
      DistinctFirstOccurrenceOrder(ks, i, j);
    }
  }

  /** A rearrangement `r` of a tally `t` of `ks` still counts keys of `ks` correctly. */
  lemma PermutedTallyCounts(t: seq<Entry>, r: seq<Entry>, ks: seq<string>)
    requires multiset(r) == multiset(t)
    requires forall i :: 0 <= i < |t| ==> t[i].key in ks && t[i].count == multiset(ks)[t[i].key]
    ensures forall i :: 0 <= i < |r| ==> r[i].key in ks && r[i].count == multiset(ks)[r[i].key]
  {
    forall i | 0 <= i < |r|
      ensures r[i].key in ks && r[i].count == multiset(ks)[r[i].key]
    {
      assert r[i] in multiset(t);
      var idx := FirstIndex(t, r[i]);
    }
  }

  lemma PermutedTallyCovers(t: seq<Entry>, r: seq<Entry>, ks: seq<string>)
    requires multiset(r) == multiset(t)
    requires forall i :: 0 <= i < |ks| ==> ks[i] in Keys(t)
    ensures forall i :: 0 <= i < |ks| ==> ks[i] in Keys(r)
  {
    forall i | 0 <= i < |ks|
      ensures ks[i] in Keys(r)
    {
      var idx := FirstIndex(Keys(t), ks[i]);
      assert t[idx] in multiset(r);
      var jdx := FirstIndex(r, t[idx]);
      assert Keys(r)[jdx] == ks[i];
    }
  }

  function GroupKeys(ks: seq<string>): (r: seq<Entry>)
    ensures NoDup(Keys(r))
    ensures forall i :: 0 <= i < |r| ==> r[i].key in ks
    ensures forall i :: 0 <= i < |ks| ==> ks[i] in Keys(r)
    ensures forall i :: 0 <= i < |r| ==> r[i].count == multiset(ks)[r[i].key] >= 1
    ensures Total(r) == |ks|
    ensures ByCountDesc(r)
    ensures TiesInFirstOccurrenceOrder(r, ks)
  {
    var t := Tally(ks);
    var r := SortByCount(t);
    TallyCounts(ks);
    TallyTotal(ks);
    assert forall i :: 0 <= i < |t| ==> t[i].key in ks by {
      forall i | 0 <= i < |t|
        ensures t[i].key in ks
      {
        assert Keys(t)[i] == t[i].key;
      }
    }
    assert forall i :: 0 <= i < |ks| ==> ks[i] in Keys(t);
    DistinctKeysInOrder(t, ks);
    SortKeepsTieOrder(t, ks);
    SortKeepsKeysDistinct(t);
    PermutedTallyCounts(t, r, ks);
    PermutedTallyCovers(t, r, ks);
    r
  }
}

=== FILE: normalizer.dfy ===
/** Cell access and the value normaliser (`normalizeValue`). */
module Normalizer {
  import opened Wrappers
  import opened Text

  /** A parsed CSV record: header name to cell text. A header the record lacks
      reads as `undefined`; names a plain object inherits from `Object.prototype`
      (`constructor`, `toString`, ...) are outside this model. */
  type Row = map<string, string>

  /** `row[column]`: the cell, or `None` for `undefined` when the record has no such header. */
  function Cell(row: Row, column: string): Option<string> {
    if column in row then Some(row[column]) else None
  }

  /** `normalizeValue`: absent cells, and cells that trim to `-`, `null` or any
      case of `na`, become `""`; every other cell is trimmed. */
  function Normalize(v: Option<string>): (r: string)
    ensures v.None? ==> r == ""
    ensures v.Some? ==> (r == "" <==> Trim(v.value) in {"", "-", "null", "na", "nA", "Na", "NA"})
    ensures v.Some? && r != "" ==> r == Trim(v.value)
    ensures r == [] || (!IsWhitespace(r[0]) && !IsWhitespace(r[|r| - 1]))
  {
    match v
    case None => ""
    case Some(raw) => DropSentinel(Trim(raw))
  }

  /** A trimmed cell that is `-`, `null` or any case of `na` becomes `""`; any other is kept. */
  function DropSentinel(s: string): (r: string)
    ensures r == "" <==> s in {"", "-", "null", "na", "nA", "Na", "NA"}
    ensures r != "" ==> r == s
  {
    LowerIsNa(s);
    if s == "-" || s == "null" || Lower(s) == "na" then "" else s
  }

  /** `normalizeValue(r[column])`: `""` when the record lacks the header or the
      cell is blank or a sentinel, and otherwise the trimmed cell. */
  function Value(row: Row, column: string): string {
    Normalize(Cell(row, column))
  }

  /** A header the record lacks reads as `""`; a present cell reads as `""`
      exactly when it trims to a blank or a sentinel, and otherwise as its
      trimmed text. */
  lemma ValueOfCell(row: Row, column: string)
    ensures column !in row ==> Value(row, column) == ""
    ensures column in row ==>
      (Value(row, column) == "" <==> Trim(row[column]) in {"", "-", "null", "na", "nA", "Na", "NA"})
    ensures Value(row, column) != "" ==> column in row && Value(row, column) == Trim(row[column])
  {
  }

  /** The normalised cells of `column`, one per row. */
  function Values(rows: seq<Row>, column: string): (vs: seq<string>)
    ensures |vs| == |rows|
    ensures forall i :: 0 <= i < |rows| ==> vs[i] == Value(rows[i], column)
  {
    seq(|rows|, i requires 0 <= i < |rows| => Value(rows[i], column))
  }

  /** Normalising a normalised value changes nothing. */
  lemma NormalizeIdempotent(v: Option<string>)
    ensures Normalize(Some(Normalize(v))) == Normalize(v)
  {
    TrimFixpoint(Normalize(v));
  }

  /** A value with non-blank ends that is no sentinel normalises to itself. */
  lemma NormalizeKeepsClean(s: string)
    requires s == [] || (!IsWhitespace(s[0]) && !IsWhitespace(s[|s| - 1]))
    requires s !in {"", "-", "null", "na", "nA", "Na", "NA"}
    ensures Normalize(Some(s)) == s
  {
    TrimFixpoint(s);
  }

  /** The sentinel check on `null` is case-sensitive: `NULL` survives. */
  lemma NormalizeKeepsUpperNull()
    ensures Normalize(Some("NULL")) == "NULL"
  {
    NormalizeKeepsClean("NULL");
  }

  /** The sentinel check on `na` ignores case and surrounding whitespace. */
  lemma NormalizeDropsPaddedNa(raw: string)
    requires raw == " Na "
    ensures Normalize(Some(raw)) == ""
  {
    assert raw == " " + "Na" + " ";
    TrimPadded(" ", "Na", " ");
    LowerIsNa("Na");
  }

  /** Whitespace around a value with non-blank ends never changes what it normalises to. */
  lemma NormalizeIgnoresPadding(pre: string, core: string, post: string)
    requires forall k :: 0 <= k < |pre| ==> IsWhitespace(pre[k])
    requires forall k :: 0 <= k < |post| ==> IsWhitespace(post[k])
    requires core != [] && !IsWhitespace(core[0]) && !IsWhitespace(core[|core| - 1])
    ensures Normalize(Some(pre + core + post)) == Normalize(Some(core))
  {
    TrimPadded(pre, core, post);
    TrimFixpoint(core);
  }
}

=== FILE: scenarios.dfy ===
/** The dashboard on a small three-row dataset: counting by nationality and
    filtering by gender. */
module Scenarios {
  import opened Text
  import opened Seqs
  import opened Normalizer
  import opened ColumnResolver
  import opened FrequencyTable
  import opened FrequencySpec
  import opened Aggregator
  import opened FilterEngine

  const Cols := ColumnMap("gender", "nationality", "visa", "school")

  const Row1: Row := map["gender" := "M", "nationality" := "VN", "visa" := "D2", "school" := "A"]
  const Row2: Row := map["gender" := "F", "nationality" := "VN", "visa" := "D2", "school" := "B"]
  const Row3: Row := map["gender" := "M", "nationality" := "KR", "visa" := "D4", "school" := "A"]

  /** A clean cell reads as itself. */
  lemma CleanValue(row: Row, column: string, v: string)
    requires column in row && row[column] == v
    requires v == [] || (!IsWhitespace(v[0]) && !IsWhitespace(v[|v| - 1]))
    requires v !in {"", "-", "null", "na", "nA", "Na", "NA"}
    ensures Value(row, column) == v
  {
    NormalizeKeepsClean(v);
  }

  /** The sample rows' nationalities and genders read as written. */
  lemma SampleValues()
    ensures Value(Row1, "nationality") == "VN" && Value(Row2, "nationality") == "VN"
    ensures Value(Row3, "nationality") == "KR"
    ensures Value(Row1, "gender") == "M" && Value(Row2, "gender") == "F" && Value(Row3, "gender") == "M"
  {
    Row1Values();
    Row2Values();
    Row3Values();
  }

  lemma Row1Values()
    ensures Value(Row1, "nationality") == "VN" && Value(Row1, "gender") == "M"
  {
    CleanValue(Row1, "nationality", "VN");
    CleanValue(Row1, "gender", "M");
  }

  lemma Row2Values()
    ensures Value(Row2, "nationality") == "VN" && Value(Row2, "gender") == "F"
  {
    CleanValue(Row2, "nationality", "VN");
    CleanValue(Row2, "gender", "F");
  }

  lemma Row3Values()
    ensures Value(Row3, "nationality") == "KR" && Value(Row3, "gender") == "M"
  {
    CleanValue(Row3, "nationality", "KR");
    CleanValue(Row3, "gender", "M");
  }

  /** Rows whose nationalities read VN, VN, KR have those keys. */
  lemma KeysOfThree(rows: seq<Row>)
    requires |rows| == 3
    requires Value(rows[0], "nationality") == "VN" && Value(rows[1], "nationality") == "VN"
    requires Value(rows[2], "nationality") == "KR"
    ensures var ks := RowKeys(rows, "nationality"); |ks| == 3 && ks[0] == "VN" && ks[1] == "VN" && ks[2] == "KR"
  {
    var ks := RowKeys(rows, "nationality");
    assert ks[0] == Label("VN") == "VN";
    assert ks[1] == Label("VN") == "VN";
    assert ks[2] == Label("KR") == "KR";
  }

  /** The keys VN, VN, KR are tabled as VN twice, then KR once. */
  lemma SampleTable(ks: seq<string>)
    requires |ks| == 3 && ks[0] == "VN" && ks[1] == "VN" && ks[2] == "KR"
    ensures GroupKeys(ks) == [Entry("VN", 2), Entry("KR", 1)]
  {
    assert ks == ["VN", "VN", "KR"];
    var r := [Entry("VN", 2), Entry("KR", 1)];
    assert multiset(ks) == multiset{"VN", "VN", "KR"};
    assert Keys(r) == ["VN", "KR"];
    assert IsFrequencyTable(r, ks);
    FrequencyTableUnique(r, ks);
  }

  /** Two Vietnamese rows and one Korean row give VN twice, then KR once. */
  lemma CountByNationality(rows: seq<Row>)
    requires rows == [Row1, Row2, Row3]
    ensures GroupCount(rows, "nationality") == [Entry("VN", 2), Entry("KR", 1)]
  {
    SampleValues();
    KeysOfThree(rows);
    SampleTable(RowKeys(rows, "nationality"));
  }

  /** Selecting "M" keeps rows whose genders read M and drops one that reads F. */
  lemma KeepsOfThree(rows: seq<Row>, c: Criteria)
    requires |rows| == 3 && c == Criteria("M", "", "")
    requires Value(rows[0], Cols.gender) == "M" && Value(rows[1], Cols.gender) == "F"
    requires Value(rows[2], Cols.gender) == "M"
    ensures Keep(Cols, c, rows[0]) && !Keep(Cols, c, rows[1]) && Keep(Cols, c, rows[2])
  {
    GenderOnly(Cols, "M", rows[0]);
    GenderOnly(Cols, "M", rows[1]);
    GenderOnly(Cols, "M", rows[2]);
  }

  /** Among rows whose genders read M, F, M, selecting "M" keeps the first and third, in that order. */
  lemma FilterByGenderOf(rows: seq<Row>)
    requires |rows| == 3
    requires Value(rows[0], Cols.gender) == "M" && Value(rows[1], Cols.gender) == "F"
    requires Value(rows[2], Cols.gender) == "M"
    ensures ApplyFilters(rows, Cols, Criteria("M", "", "")) == [rows[0], rows[2]]
  {
    var c := Criteria("M", "", "");
    KeepsOfThree(rows, c);
    ApplyFiltersKeepsOuter(rows, Cols, c);
  }

  /** The sample rows: genders M, F, M. */
  lemma FilterByGender(rows: seq<Row>)
    requires rows == [Row1, Row2, Row3]
    ensures ApplyFilters(rows, Cols, Criteria("M", "", "")) == [Row1, Row3]
  {
    SampleValues();
    FilterByGenderOf(rows);
  }
}

=== FILE: seqs.dfy ===
/** Generic facts about finite sequences: duplicates, first occurrences,
    insertion-ordered de-duplication and subsequences. */
module Seqs {

  /** No value occurs twice in `s`. */
  predicate NoDup<T(==)>(s: seq<T>) {
    forall i, j :: 0 <= i < j < |s| ==> s[i] != s[j]
  }

  /** Without duplicates, the head does not recur in the tail, which has no duplicates either. */
  lemma NoDupTail<T>(s: seq<T>)
    requires |s| > 0 && NoDup(s)
    ensures s[0] !in s[1..] && NoDup(s[1..])
  {
  }

  /** Position of the first occurrence of `x` in `s`; `|s|` when `x` does not occur. */
  function FirstIndex<T(==)>(s: seq<T>, x: T): (i: nat)
    ensures i <= |s|
    ensures i < |s| ==> s[i] == x
    ensures forall k :: 0 <= k < i ==> s[k] != x
    ensures i == |s| <==> x !in s
  {
    if |s| == 0 then 0
    else if s[0] == x then 0
    else 1 + FirstIndex(s[1..], x)
  }

  /** Appending never moves the first occurrence of a value already present. */
  lemma {:induction false} FirstIndexAppend<T>(s: seq<T>, y: T, x: T)
    requires x in s
    ensures FirstIndex(s + [y], x) == FirstIndex(s, x)
  {
    if s[0] != x {
      assert (s + [y])[1..] == s[1..] + [y];
      FirstIndexAppend(s[1..], y, x);
    }
  }

  /** The distinct values of `s`, each at the position of its first occurrence,
      as `Array.from(new Set(s))` produces them. */
  function Distinct<T(==)>(s: seq<T>): (d: seq<T>)
    ensures NoDup(d)
    ensures forall i :: 0 <= i < |d| ==> d[i] in s
    ensures forall i :: 0 <= i < |s| ==> s[i] in d
    ensures |d| <= |s|
  {
    if |s| == 0 then []
    else
      var d0 := Distinct(s[..|s| - 1]);
      assert s == s[..|s| - 1] + [s[|s| - 1]];
      if s[|s| - 1] in d0 then d0 else d0 + [s[|s| - 1]]
  }

  /** `Distinct` lists values in the order of their first occurrence in `s`. */
  lemma {:induction false} DistinctFirstOccurrenceOrder<T>(s: seq<T>, i: int, j: int)
    requires 0 <= i < j < |Distinct(s)|
    ensures FirstIndex(s, Distinct(s)[i]) < FirstIndex(s, Distinct(s)[j])
  {
    var p := s[..|s| - 1];
    var y := s[|s| - 1];
    assert s == p + [y];
    var d0 := Distinct(p);
    var d := Distinct(s);
    assert d[i] in p by { assert d[i] in d0; }
    FirstIndexAppend(p, y, d[i]);
    if j < |d0| {
      DistinctFirstOccurrenceOrder(p, i, j);
      assert d[j] in d0;
      FirstIndexAppend(p, y, d[j]);
    } else {
      assert d[j] == y && y !in p;
      assert FirstIndex(s, y) == |p| by {
        assert forall k :: 0 <= k < |p| ==> s[k] == p[k];
      }
    }
  }

  /** `a` can be obtained from `b` by deleting elements, keeping the order of the rest. */
  predicate IsSubseq<T(==)>(a: seq<T>, b: seq<T>)
    decreases |b|
  {
    if |a| == 0 then true
    else if |b| == 0 then false
    else (a[0] == b[0] && IsSubseq(a[1..], b[1..])) || IsSubseq(a, b[1..])
  }

  /** `Array.prototype.filter`: the elements `keep` accepts, in their order. */
  function Filter<T>(s: seq<T>, keep: T -> bool): (r: seq<T>)
    ensures |r| <= |s|
    ensures forall i :: 0 <= i < |r| ==> keep(r[i]) && r[i] in s
    ensures forall i :: 0 <= i < |s| && keep(s[i]) ==> s[i] in r
  {
    if |s| == 0 then []
    else (if keep(s[0]) then [s[0]] else []) + Filter(s[1..], keep)
  }

  /** The filter deletes elements and never reorders the ones it keeps. */
  lemma {:induction false} FilterIsSubseq<T>(s: seq<T>, keep: T -> bool)
    ensures IsSubseq(Filter(s, keep), s)
  {
    if |s| > 0 {
      FilterIsSubseq(s[1..], keep);
      var rest := Filter(s[1..], keep);
      if keep(s[0]) {
        assert Filter(s, keep) == [s[0]] + rest;
        assert Filter(s, keep)[1..] == rest;
      } else {
        assert Filter(s, keep) == rest;
      }
    }
  }

  /** A value the filter accepts keeps all its copies; any other value loses them all. */
  lemma {:induction false} FilterMultiplicity<T>(s: seq<T>, keep: T -> bool, x: T)
    ensures multiset(Filter(s, keep))[x] == if keep(x) then multiset(s)[x] else 0
  {
    if |s| > 0 {
      FilterMultiplicity(s[1..], keep, x);
      assert s == [s[0]] + s[1..];
    }
  }

  /** `FilterMultiplicity` for every value at once. */
  lemma FilterMultiplicityAll<T>(s: seq<T>, keep: T -> bool)
    ensures forall x :: multiset(Filter(s, keep))[x] == if keep(x) then multiset(s)[x] else 0
  {
    forall x
      ensures multiset(Filter(s, keep))[x] == if keep(x) then multiset(s)[x] else 0
    {
      FilterMultiplicity(s, keep, x);
    }
  }

  /** Filtering a filtered sequence again with the same test changes nothing. */
  lemma {:induction false} FilterIdempotent<T>(s: seq<T>, keep: T -> bool)
    ensures Filter(Filter(s, keep), keep) == Filter(s, keep)
  {
    if |s| > 0 {
      FilterIdempotent(s[1..], keep);
      var rest := Filter(s[1..], keep);
      if keep(s[0]) {
        var f := Filter(s, keep);
        assert f == [s[0]] + rest;
        assert f[1..] == rest;
        assert Filter(f, keep) == [s[0]] + Filter(rest, keep);
      } else {
        assert Filter(s, keep) == rest;
      }
    }
  }

  /** A filter that accepts every element returns its input. */
  lemma {:induction false} FilterKeepsAll<T>(s: seq<T>, keep: T -> bool)
    requires forall i :: 0 <= i < |s| ==> keep(s[i])
    ensures Filter(s, keep) == s
  {
    if |s| > 0 {
      FilterKeepsAll(s[1..], keep);
      assert s == [s[0]] + s[1..];
    }
  }

  /** `Filter` on three elements, written out. */
  lemma FilterOfThree<T>(s: seq<T>, keep: T -> bool)
    requires |s| == 3
    ensures Filter(s, keep) == (if keep(s[0]) then [s[0]] else []) + (if keep(s[1]) then [s[1]] else [])
                               + (if keep(s[2]) then [s[2]] else [])
  {
    var tail2 := s[2..];
    assert tail2[1..] == [] && tail2[0] == s[2];
    assert Filter(tail2, keep) == if keep(s[2]) then [s[2]] else [];
    assert s[1..][1..] == tail2 && s[1..][0] == s[1];
  }

  /** Filtering by `p` and then by `q` is filtering by `both` once, when `both` is their conjunction. */
  lemma {:induction false} FilterCompose<T>(s: seq<T>, p: T -> bool, q: T -> bool, both: T -> bool)
    requires forall i :: 0 <= i < |s| ==> both(s[i]) == (p(s[i]) && q(s[i]))
    ensures Filter(Filter(s, p), q) == Filter(s, both)
  {
    if |s| > 0 {
      FilterCompose(s[1..], p, q, both);
      var rest := Filter(s[1..], p);
      if p(s[0]) {
        var f := Filter(s, p);
        assert f == [s[0]] + rest;
        assert f[1..] == rest;
        assert Filter(f, q) == (if q(s[0]) then [s[0]] else []) + Filter(rest, q);
      } else {
        assert Filter(s, p) == rest;
      }
      assert Filter(s, both) == (if both(s[0]) then [s[0]] else []) + Filter(s[1..], both);
    }
  }
}

=== FILE: table.dfy ===
/** `renderTable`: one page of the filtered rows, each shown as its four normalised cells. */
module Table {
  import opened Normalizer
  import opened ColumnResolver

  function Min(a: int, b: int): int {
    if a <= b then a else b
  }

  /** The index of the first row on page `page`. */
  function PageStart(page: nat, size: nat): nat
    requires page >= 1
  {
    (page - 1) * size
  }

  /** `rows.slice(start, start + size)` with `start = (page - 1) * size`. */
  function PageSlice<T>(rows: seq<T>, page: nat, size: nat): (r: seq<T>)
    requires page >= 1
    ensures |r| == if PageStart(page, size) >= |rows| then 0 else Min(size, |rows| - PageStart(page, size))
    ensures forall i :: 0 <= i < |r| ==> r[i] == rows[PageStart(page, size) + i]
  {
    var start := PageStart(page, size);
    if start >= |rows| then [] else rows[start..Min(start + size, |rows|)]
  }

  /** The first `n` pages laid end to end. */
  function Pages<T>(rows: seq<T>, size: nat, n: nat): seq<T> {
    if n == 0 then [] else Pages(rows, size, n - 1) + PageSlice(rows, n, size)
  }

  /** Paging loses and repeats nothing: the first `n` pages are the first
      `n * size` rows. */
  lemma {:induction false} PagesArePrefix<T>(rows: seq<T>, size: nat, n: nat)
    ensures Pages(rows, size, n) == rows[..Min(n * size, |rows|)]
  {
    if n > 0 {
      PagesArePrefix(rows, size, n - 1);
      var lo := Min((n - 1) * size, |rows|);
      var hi := Min(n * size, |rows|);
      PageSliceBetween(rows, size, n);
      PrefixThenSlice(rows, lo, hi);
    }
  }

  /** The first `lo` elements followed by those from `lo` to `hi` are the first `hi`. */
  lemma PrefixThenSlice<T>(s: seq<T>, lo: nat, hi: nat)
    requires lo <= hi <= |s|
    ensures s[..lo] + s[lo..hi] == s[..hi]
  {
    assert s[..hi] == s[..lo] + s[lo..hi];
  }

  /** Page `n` holds the rows from `(n - 1) * size` up to `n * size`, cut at the end of `rows`. */
  lemma PageSliceBetween<T>(rows: seq<T>, size: nat, n: nat)
    requires n >= 1
    ensures Min((n - 1) * size, |rows|) <= Min(n * size, |rows|)
    ensures PageSlice(rows, n, size) == rows[Min((n - 1) * size, |rows|)..Min(n * size, |rows|)]
  {
    assert PageStart(n, size) == (n - 1) * size;
    assert n * size == (n - 1) * size + size;
  }

  /** With a positive page size, row `k` is entry `k % size` of page `k / size + 1`. */
  lemma RowOnItsPage<T>(rows: seq<T>, size: nat, k: int)
    requires size > 0 && 0 <= k < |rows|
    ensures k % size < |PageSlice(rows, k / size + 1, size)|
    ensures PageSlice(rows, k / size + 1, size)[k % size] == rows[k]
  {
    assert PageStart(k / size + 1, size) + k % size == k;
  }

  /** A table row: the normalised gender, nationality, visa and school cells. */
  datatype TableRow = TableRow(gender: string, nationality: string, visa: string, school: string)

  function Display(row: Row, cols: ColumnMap): TableRow {
    TableRow(Value(row, cols.gender), Value(row, cols.nationality), Value(row, cols.visa), Value(row, cols.school))
  }

  function DisplayAll(p: seq<Row>, cols: ColumnMap): (t: seq<TableRow>)
    ensures |t| == |p|
    ensures forall i :: 0 <= i < |p| ==> t[i] == Display(p[i], cols)
  {
    seq(|p|, i requires 0 <= i < |p| => Display(p[i], cols))
  }

  /** The rows of the table body for page `page`. */
  function RenderTable(rows: seq<Row>, cols: ColumnMap, page: nat, size: nat): (t: seq<TableRow>)
    requires page >= 1
    ensures |t| == |PageSlice(rows, page, size)| <= size
    ensures forall i :: 0 <= i < |t| ==> t[i] == Display(rows[PageStart(page, size) + i], cols)
  {
    var p := PageSlice(rows, page, size);
    assert |p| <= size;
    DisplayAll(p, cols)
  }
}

=== FILE: text.dfy ===
/** String helpers with the ECMAScript behaviour the dashboard relies on:
    `String.prototype.trim`, lower-casing, `includes` and the default
    comparison used by `Array.prototype.sort`. */
module Text {

  /** The characters `trim` removes: ECMAScript WhiteSpace (tab, vertical tab,
      form feed, no-break space, byte-order mark and every Unicode space
      separator) and LineTerminator (line feed, carriage return, U+2028, U+2029). */
  predicate IsWhitespace(c: char) {
    || c == '\t' || c == '\n' || c == '\U{000B}' || c == '\U{000C}' || c == '\r'
    || c == ' ' || c == '\U{00A0}' || c == '\U{1680}' || ('\U{2000}' <= c <= '\U{200A}')
    || c == '\U{2028}' || c == '\U{2029}' || c == '\U{202F}' || c == '\U{205F}'
    || c == '\U{3000}' || c == '\U{FEFF}'
  }

  /** `s` without its leading whitespace. */
  function TrimStart(s: string): (r: string)
    ensures |r| <= |s| && r == s[|s| - |r|..]
    ensures r == [] || !IsWhitespace(r[0])
    ensures forall k :: 0 <= k < |s| - |r| ==> IsWhitespace(s[k])
  {
    if |s| > 0 && IsWhitespace(s[0]) then TrimStart(s[1..]) else s
  }

  /** `s` without its trailing whitespace. */
  function TrimEnd(s: string): (r: string)
    ensures |r| <= |s| && r == s[..|r|]
    ensures r == [] || !IsWhitespace(r[|r| - 1])
    ensures forall k :: |r| <= k < |s| ==> IsWhitespace(s[k])
  {
    if |s| > 0 && IsWhitespace(s[|s| - 1]) then TrimEnd(s[..|s| - 1]) else s
  }

  /** `String.prototype.trim`. */
  function Trim(s: string): (r: string)
    ensures |r| <= |s|
    ensures r == [] || (!IsWhitespace(r[0]) && !IsWhitespace(r[|r| - 1]))
  {
    TrimEnd(TrimStart(s))
  }

  /** `Trim` cuts `s` down to an infix, and only whitespace is cut away. */
  lemma TrimIsInfix(s: string) returns (lo: nat, hi: nat)
    ensures lo <= hi <= |s| && Trim(s) == s[lo..hi]
    ensures forall k :: 0 <= k < lo ==> IsWhitespace(s[k])
    ensures forall k :: hi <= k < |s| ==> IsWhitespace(s[k])
  {
    var t := TrimStart(s);
    var r := TrimEnd(t);
    lo, hi := TrimBounds(s, t, r);
  }

  /** A whitespace-only prefix cut from `s`, then a whitespace-only suffix cut from the rest,
      leave an infix of `s` with whitespace on either side. */
  lemma TrimBounds(s: string, t: string, r: string) returns (lo: nat, hi: nat)
    requires |t| <= |s| && t == s[|s| - |t|..]
    requires forall k :: 0 <= k < |s| - |t| ==> IsWhitespace(s[k])
    requires |r| <= |t| && r == t[..|r|]
    requires forall k :: |r| <= k < |t| ==> IsWhitespace(t[k])
    ensures lo <= hi <= |s| && r == s[lo..hi]
    ensures forall k :: 0 <= k < lo ==> IsWhitespace(s[k])
    ensures forall k :: hi <= k < |s| ==> IsWhitespace(s[k])
  {
    lo := |s| - |t|;
    hi := lo + |r|;
    assert s[lo..hi] == s[lo..][..|r|];
    forall k | hi <= k < |s|
      ensures IsWhitespace(s[k])
    {
      assert s[k] == t[k - lo];
    }
  }

  /** A string with no whitespace at either end is left as it is. */
  lemma TrimFixpoint(s: string)
    requires s == [] || (!IsWhitespace(s[0]) && !IsWhitespace(s[|s| - 1]))
    ensures Trim(s) == s
  {
  }

  /** Trimming twice is trimming once. */
  lemma TrimIdempotent(s: string)
    ensures Trim(Trim(s)) == Trim(s)
  {
    TrimFixpoint(Trim(s));
  }

  /** Whitespace around a string with non-blank ends is exactly what `Trim` removes. */
  lemma TrimPadded(pre: string, core: string, post: string)
    requires forall k :: 0 <= k < |pre| ==> IsWhitespace(pre[k])
    requires forall k :: 0 <= k < |post| ==> IsWhitespace(post[k])
    requires core != [] && !IsWhitespace(core[0]) && !IsWhitespace(core[|core| - 1])
    ensures Trim(pre + core + post) == core
  {
    assert pre + core + post == pre + (core + post);
    TrimStartPadded(pre, core + post);
    TrimEndPadded(core, post);
  }

  /** Leading whitespace before a non-blank character is what `TrimStart` removes. */
  lemma TrimStartPadded(pre: string, rest: string)
    requires forall k :: 0 <= k < |pre| ==> IsWhitespace(pre[k])
    requires rest != [] && !IsWhitespace(rest[0])
    ensures TrimStart(pre + rest) == rest
  {
    var s := pre + rest;
    var t := TrimStart(s);
    assert s[|pre|] == rest[0];
    assert forall k :: 0 <= k < |pre| ==> IsWhitespace(s[k]);
    assert |t| == |rest|;
  }

  /** Trailing whitespace after a non-blank character is what `TrimEnd` removes. */
  lemma TrimEndPadded(core: string, post: string)
    requires forall k :: 0 <= k < |post| ==> IsWhitespace(post[k])
    requires core != [] && !IsWhitespace(core[|core| - 1])
    ensures TrimEnd(core + post) == core
  {
    var s := core + post;
    var r := TrimEnd(s);
    assert s[|core| - 1] == core[|core| - 1];
    assert forall k :: |core| <= k < |s| ==> IsWhitespace(s[k]);
    assert |r| == |core|;
  }

  /** ASCII lower-casing of one character. */
  function LowerChar(c: char): char {
    if 'A' <= c <= 'Z' then (c as int + 32) as char else c
  }

  /** ASCII lower-casing of a string, character by character. */
  function Lower(s: string): (r: string)
    ensures |r| == |s|
    ensures forall i :: 0 <= i < |s| ==> r[i] == LowerChar(s[i])
  {
    seq(|s|, i requires 0 <= i < |s| => LowerChar(s[i]))
  }

  /** Lower-casing moves each ASCII capital down by 32 code points to its small
      letter, keeps every other character, and leaves no capital behind. */
  lemma LowerFoldsCapitals(s: string)
    ensures forall i :: 0 <= i < |s| ==> !('A' <= Lower(s)[i] <= 'Z')
    ensures forall i :: 0 <= i < |s| && !('A' <= s[i] <= 'Z') ==> Lower(s)[i] == s[i]
    ensures forall i :: 0 <= i < |s| && 'A' <= s[i] <= 'Z' ==> Lower(s)[i] as int == s[i] as int + 32
  {
  }

  /** Lower-casing twice is lower-casing once. */
  lemma LowerIdempotent(s: string)
    ensures Lower(Lower(s)) == Lower(s)
  {
  }

  /** The two-letter strings that lower-case to `"na"` are exactly the four case variants of it. */
  lemma LowerIsNa(s: string)
    ensures Lower(s) == "na" <==> s in {"na", "nA", "Na", "NA"}
  {
    if Lower(s) == "na" {
      assert |s| == 2;
      assert s[0] == 'n' || s[0] == 'N';
      assert s[1] == 'a' || s[1] == 'A';
      assert s == [s[0], s[1]];
    }
  }

  /** `p` is a prefix of `s`. */
  predicate StartsWith(s: string, p: string) {
    |p| <= |s| && s[..|p|] == p
  }

  /** `String.prototype.includes`: `p` occurs somewhere inside `s`. */
  predicate Contains(s: string, p: string)
    decreases |s|
  {
    StartsWith(s, p) || (|s| > 0 && Contains(s[1..], p))
  }

  /** `p` occurs in `s` starting at offset `i`. */
  predicate OccursAt(s: string, p: string, i: int) {
    0 <= i <= |s| - |p| && s[i..i + |p|] == p
  }

  /** An occurrence in the tail of `s` is an occurrence in `s`, one further on. */
  lemma OccursAtTail(s: string, p: string, i: int)
    requires |s| > 0 && i >= 0
    ensures OccursAt(s[1..], p, i) <==> OccursAt(s, p, i + 1)
  {
    if 0 <= i <= |s| - 1 - |p| {
      assert s[1..][i..i + |p|] == s[i + 1..i + 1 + |p|];
    }
  }

  /** `Contains` holds exactly when `p` occurs in `s` at some offset. */
  lemma {:induction false} ContainsAt(s: string, p: string)
    ensures Contains(s, p) <==> exists i :: OccursAt(s, p, i)
  {
    if StartsWith(s, p) {
      assert OccursAt(s, p, 0);
    } else if |s| > 0 {
      ContainsAt(s[1..], p);
      if exists i :: OccursAt(s, p, i) {
        var i :| OccursAt(s, p, i);
        assert i > 0;
        OccursAtTail(s, p, i - 1);
      }
      if Contains(s[1..], p) {
        var i :| OccursAt(s[1..], p, i);
        OccursAtTail(s, p, i);
      }
    }
  }

  /** Lexicographic order on strings, character by character, a proper prefix first. */
  predicate LexLe(a: string, b: string) {
    |a| == 0 || (|b| > 0 && (a[0] < b[0] || (a[0] == b[0] && LexLe(a[1..], b[1..]))))
  }

  lemma {:induction false} LexLeTotal(a: string, b: string)
    ensures LexLe(a, b) || LexLe(b, a)
  {
    if |a| > 0 && |b| > 0 && a[0] == b[0] {
      LexLeTotal(a[1..], b[1..]);
    }
  }

  lemma {:induction false} LexLeAntisymmetric(a: string, b: string)
    requires LexLe(a, b) && LexLe(b, a)
    ensures a == b
  {
    if |a| > 0 && |b| > 0 {
      LexLeAntisymmetric(a[1..], b[1..]);
      assert a == [a[0]] + a[1..] && b == [b[0]] + b[1..];
    }
  }

  lemma {:induction false} LexLeTransitive(a: string, b: string, c: string)
    requires LexLe(a, b) && LexLe(b, c)
    ensures LexLe(a, c)
  {
    if |a| > 0 && |b| > 0 && |c| > 0 && a[0] == b[0] && b[0] == c[0] {
      LexLeTransitive(a[1..], b[1..], c[1..]);
    }
  }
}

=== FILE: wrappers.dfy ===
/** The optional value used wherever the dashboard meets `undefined`. */
module Wrappers {

  /** `None` stands for an absent (undefined or null) value. */
  datatype Option<+T> = None | Some(value: T)
}
